=== FILE: README.md ===
# cafy-pytest granular time accounting, in Dafny

This project models the core of cafy-pytest's granular time accounting.

The main collector in `cafy_gta.py`:
- keeps a ledger of test → category → operation key → list of `[elapsed, tag]` samples;
- fills that ledger from wrappers around set/get methods and around `time.sleep`;
- guards the class patching with a `_decorated` marker;
- merges the logger's own timing channel in at teardown;
- folds the ledger into a per-test report with process-wide accumulators, and splits each report row into `categories` and `totals`.

The older collector in `cafy_timer.py` keeps one running sum in seconds per test and category. It writes a flat report.

The model also covers:
- `Cafy.RunInfo` from `cafy.py`: non-blocking steps record the exceptions they swallow, and a scope turns them into one composite error;
- the message conversion of `TestcaseStatus`;
- from `cafy_pdb.py`: the environment bucketing of `show_locals`, the `OutputCapture` tee, and the `postcmd` transcript.

Modules, one per component:

| module | file | models |
|---|---|---|
| `Wrappers`, `Strings`, `Sums` | `wrappers.dfy`, `strings.dfy`, `sums.dfy` | Python `None`/exceptions as `Option`/`Result`, `startswith` and `in` on strings, order-independent sums over maps |
| `TestIdentity` | `test_identity.dfy` | the `Class.test` key both collectors build |
| `GtaLedger` | `gta_ledger.dfy` | sample recording, the set/get and sleep wrappers, teardown merge |
| `GtaPatch` | `gta_patch.dfy` | wrapper installation and the `_decorated` guard |
| `GtaReport` | `gta_report.dfy` | `get_time_data`, the report loop, the transform |
| `GtaPlugin` | `gta_plugin.dfy` | the plugin record and its runner hooks |
| `Timer` | `timer.dfy` | the older collector |
| `RunInfo` | `run_info.dfy` | step/scope exception state, `TestcaseStatus` |
| `PdbEnv`, `PdbCapture` | `pdb_env.dfy`, `pdb_capture.dfy` | env bucketing, output capture and transcript |

Conventions:
- Elapsed time in the gta ledger is an integer in hundredths of a microsecond. The wrappers quantise microseconds with `'%.2f'` before storing them.
- Elapsed time in the timer is a `real` number of seconds.
- Clocks, reflection and monkey-patching are inputs:
  - a wrapper receives the measured `elapsed`;
  - the sleep wrapper receives the caller frame's class, method name and resolved method;
  - the patcher receives the module's classes as a list of class identities and a class table keyed by identity. Two classes with the same `__name__` in different modules are different entries, as they are different objects in Python.
- The current test key is `Option<string>`, because `test_case_name` is `None` before the first test starts.
- Python dicts are Dafny maps. Where iteration order matters, it is an explicit input: the report's first row absorbs whatever the accumulators held on entry.

Behaviours of the code that a reader might not expect, all of which the model follows:
- A set/get method that raises records no sample; the exception escapes before the second clock read.
- The sleep key is `Class.method.time.sleep`.
- A sample recorded before any test started goes under the key `None`.
- A category holding an empty sample list makes `get_time_data` raise `IndexError`, so the whole report fails.
- A number copied in from the logger's channel passes through `get_time_data` and then makes the transform raise `TypeError`.
- The `_decorated` marker is per test class, not per patched class (see Findings). The plugin's protocol hook uses the patcher as written; the corrected one is a separate hook.
- `getattr` on a caller's class finds the timing wrapper once the patcher has wrapped that method. `functools.wraps` copies the wrapper's name but not its code object, so `get_method_type` reads the plugin's own file. A sleep inside a wrapped setter of a feature library is therefore tagged `infra`. So is the outer sample of a doubly wrapped setter.
- The test key holds only the class's `__name__` and the test name, so same-named classes in two test modules share their keys and their times.

## Model

| member | source | states |
|---|---|---|
| GtaLedger.Record | cafy_pytest/cafy_gta.py:30-36 | creates any missing test, category or key level and appends exactly one `[elapsed, tag]` at the end of that key's list; every other test, category and key keeps its value; a key holding a bare number (no `append`) raises AttributeError and nothing changes |
| GtaLedger.SampleSumAppend | cafy_pytest/cafy_gta.py:36 | appending a sample adds its elapsed time to the list's sum |
| GtaLedger.RecordAddsOneSample | cafy_pytest/cafy_gta.py:30-36 | after a successful record, the key's sum grows by exactly the new elapsed time and its count by exactly one |
| GtaLedger.MethodType | cafy_pytest/cafy_gta.py:43-47 | None iff the source path is empty; `non-infra` iff the path contains `lib/feature_lib` or `lib/hw`; `infra` otherwise |
| GtaLedger.CategoryOf | cafy_pytest/cafy_gta.py:70-73 | `set_command` iff the name starts with `set`; `get_command` iff it starts with `get` and not `set`; no category otherwise |
| GtaLedger.SetOrGetCall | cafy_pytest/cafy_gta.py:56-75 | the original runs once on the caller's argument and its result is returned unchanged; a raising original records nothing; otherwise exactly one sample is recorded under `cls_name.method_name`, in the name's category, tagged from the source path; a name that is neither set nor get only creates the test's map |
| GtaLedger.SleepCallAsWritten | cafy_pytest/cafy_gta.py:83-98 | the code as written: when the caller's method does not resolve, the original sleep is never called and nothing is recorded; when it resolves, the duration is forwarded exactly once and the call behaves as `SleepRecorded` |
| GtaLedger.SleepKey | cafy_pytest/cafy_gta.py:98 | the sleep key is the caller's class name, '.', the method name, then `.time.sleep` |
| GtaLedger.SleepRecorded | cafy_pytest/cafy_gta.py:90-98 | forwards the duration once; on success files one `sleep_time` sample under `Caller.method.time.sleep`, tagged from the source path of the function `getattr` resolved; a raising sleep records nothing |
| GtaLedger.SleepSkippedWithoutSelf | cafy_pytest/cafy_gta.py:84-89 | a sleep from a module-level function (class `NoneType`, method unresolved) never reaches the original sleep |
| GtaLedger.SleepCall | cafy_pytest/cafy_gta.py:83-98 | the wrapper as intended: the original sleep always runs exactly once with the same duration, and a sample is filed only when the caller's method resolves |
| GtaLedger.MergeCommand | cafy_pytest/cafy_gta.py:158-162 | the category exists afterwards; each channel entry overwrites the entry with the same key; other keys and other categories are untouched |
| GtaLedger.MergeCommands | cafy_pytest/cafy_gta.py:170-173 | the test gains exactly the listed categories; categories not listed keep their values |
| GtaLedger.Teardown | cafy_pytest/cafy_gta.py:175-184 | the current test has `set_command`, `get_command` and `sleep_time`; other tests and the test's other categories are untouched; the channel is left empty |
| GtaLedger.TeardownMerges | cafy_pytest/cafy_gta.py:158-184 | each of the three categories ends as the channel's entries laid over the ledger's own, key by key; with no channel entry for it, the category is unchanged |
| GtaLedger.TeardownExample | cafy_pytest/cafy_gta.py:175-184 | a channel entry `{"method1": 1.23}` lands unchanged under `set_command`, `get_command` is created empty, and the channel is drained |
| GtaPatch.WrapModule | cafy_pytest/cafy_gta.py:114-124 | every qualifying member (a `set`/`get` name other than `setup_method`) of every listed class gets one more wrapper per time the class is listed; other members and all markers are untouched |
| GtaPatch.Patch | cafy_pytest/cafy_gta.py:108-126 | the code as written: no class, or a class already marked, means no change; otherwise every class of the module is wrapped, `setup_method` never is, and only the test's own class is marked |
| GtaPatch.PatchIdempotent | cafy_pytest/cafy_gta.py:108-109 | patching again for the same test class changes nothing |
| GtaPatch.PatchWrapsTwice | cafy_pytest/cafy_gta.py:108-126 | with two test classes in one module, a setter of the first class ends inside two wrappers |
| GtaPatch.WrapModuleOnce | cafy_pytest/cafy_gta.py:114-126 | the corrected loop: each unmarked listed class is wrapped once and marked; marked and unlisted classes are untouched |
| GtaPatch.PatchOnce | cafy_pytest/cafy_gta.py:108-126 | the corrected patcher: no class or a marked class means no change; the test's class is marked afterwards |
| GtaPatch.PatchOnceKeepsWrappedOnce | cafy_pytest/cafy_gta.py:108-126 | with the corrected patcher, every qualifying member of a marked class is inside exactly one wrapper, and no member of an unmarked class is wrapped, however many tests patch |
| GtaPatch.PatchOnceWrapsOnce | cafy_pytest/cafy_gta.py:108-126 | the two-class module of `PatchWrapsTwice` ends with one wrapper under the corrected patcher |
| TestIdentity.Identity | cafy_pytest/cafy_gta.py:141-149 | the key is the class name, '.', and the test name when the test has a class; the test name alone otherwise |
| TestIdentity.SplitIdentityRoundTrip | cafy_pytest/cafy_timer.py:76-84 | splitting a key at its first '.' gives back the class name and the test name, provided the class name is non-empty and holds no '.' and, for a test without a class, the test name holds no '.' |
| TestIdentity.IdentityInjective | cafy_pytest/cafy_timer.py:76-84 | under the same two conditions, two items share a key exactly when their class names and test names agree; the class's identity and module play no part |
| TestIdentity.IdentityCollidesAcrossModules | cafy_pytest/cafy_gta.py:141-149 | tests `test_1` of two different classes both named `TestBasic` get the same key |
| GtaReport.Summarise | cafy_pytest/cafy_gta.py:195-207 | a list becomes its sum, count and first tag, and raises exactly when it is empty; any other value passes through |
| GtaReport.ListSumsStep | cafy_pytest/cafy_gta.py:194-204 | visiting one more key adds that key's list sum to the running total, whichever order keys are visited in |
| GtaReport.TimeData | cafy_pytest/cafy_gta.py:186-208 | raises IndexError iff some list is empty; otherwise one summary per key, agreeing with `Summarise`, and the accumulator the event names grows by exactly the sum of all list entries |
| GtaReport.CategoryData | cafy_pytest/cafy_gta.py:218-229 | a present category gets `get_time_data`; a missing one gives an empty map and leaves the accumulators alone |
| GtaReport.CollectRow | cafy_pytest/cafy_gta.py:217-237 | a row has all three categories and the four totals: each total is what the accumulator carried in plus that test's own list sums, `total_time` is their sum, and all accumulators are zero afterwards |
| GtaReport.CollectReport | cafy_pytest/cafy_gta.py:210-238 | one row per ledger test; only the first row in iteration order sees the accumulators' value on entry, and every later row starts from zero; from zero accumulators each row holds only its own test's figures |
| GtaReport.ExpectedRowShape | cafy_pytest/cafy_gta.py:217-234 | a row has exactly the three categories and four totals, and its `total_` keys are exactly the totals |
| GtaReport.CategoryRowAggregates | cafy_pytest/cafy_gta.py:205-207 | a category row holds only aggregates iff the ledger category holds only lists |
| GtaReport.TransformRow | cafy_pytest/cafy_gta.py:269-283 | a None row gives two empty maps; otherwise `total_` keys go to `totals` with their value and every other key to `categories` with one `{source, total, occurrence, type}` record per method; a value of the wrong shape raises |
| GtaReport.Transform | cafy_pytest/cafy_gta.py:262-284 | every input test gets both maps, or the transform raises |
| GtaReport.TransformExpectedRowSucceeds | cafy_pytest/cafy_gta.py:262-284 | a report row transforms iff none of its categories holds a number copied from the channel |
| GtaReport.TransformExpectedRow | cafy_pytest/cafy_gta.py:267-284 | a transformed row has exactly the three categories and the four totals |
| GtaReport.TimeDataExample | cafy_pytest/cafy_gta.py:193-205 | samples 1.23 and 2.34 µs give sum 3.57 and count 2; with 3.45 and 4.56 the category's total is 11.58 µs |
| GtaPlugin.Init | cafy_pytest/cafy_gta.py:12-19 | a new plugin has an empty ledger, no current test and zero accumulators |
| GtaPlugin.Protocol | cafy_pytest/cafy_gta.py:128-150 | the patcher as written runs for the test's module and the test's key becomes the attribution target; ledger, accumulators and channel are untouched |
| GtaPlugin.ProtocolOnce | cafy_pytest/cafy_gta.py:128-150 | the same hook with the corrected patcher |
| GtaPlugin.ProtocolWrapsTwice | cafy_pytest/cafy_gta.py:108-149 | a test of `TestA` and then one of `TestB` from the same module leave `TestA.set_vlan` in two wrappers through the hook as written, and in one through the corrected hook |
| GtaPlugin.RunTeardown | cafy_pytest/cafy_gta.py:175-184 | the current test gets all three categories, other tests are untouched, and the channel is emptied |
| GtaPlugin.SleepAttributedToCurrentTest | cafy_pytest/cafy_gta.py:83-98 | after the protocol hook for test `T`, a sleep from method `M` of class `C` that resolves is forwarded once by the wrapper as written and files one sample under `T`, `sleep_time`, `C.M.time.sleep`, tagged from the source path of the function `getattr` resolved for `M` |
| GtaPlugin.Resolve | cafy_pytest/cafy_gta.py:86-89 | `getattr` on the class finds the function itself until it is wrapped, then a wrapper with the same name whose source path is the plugin's file |
| GtaPlugin.SleepInWrappedSetterTaggedInfra | cafy_pytest/cafy_gta.py:43-98 | after the protocol hook wraps the module, a sleep inside a setter of a listed class files its sample under `C.set_x.time.sleep` tagged `infra`, whatever file the setter was written in |
| GtaPlugin.TransformedTotals | cafy_pytest/cafy_gta.py:231-234 | each transformed test's totals are its own three list totals and their sum |
| GtaPlugin.ReportRowsOutcome | cafy_pytest/cafy_gta.py:210-238 | every row of a successful report transforms as its own ledger entry determines |
| GtaPlugin.TransformOutcome | cafy_pytest/cafy_gta.py:262-284 | the transform of a report succeeds iff no test holds a channel number, and then each test has the three categories and four totals |
| GtaPlugin.TerminalSummary | cafy_pytest/cafy_gta.py:286-292 | the summary succeeds iff no category holds an empty list or a channel number; then every test has both maps with three categories and four totals, and from zero accumulators each `total_time` is that test's own sum |
| Timer.Init | cafy_pytest/cafy_timer.py:11-18 | a new plugin has an empty ledger, no test and no clock values |
| Timer.UpdateGranularTime | cafy_pytest/cafy_timer.py:46-60 | the current test's category becomes its previous value (0 when absent) plus `elapsed`; other categories and tests are unchanged |
| Timer.MeasureSleep | cafy_pytest/cafy_timer.py:20-30 | calls the original sleep once with the same duration and adds the elapsed seconds to `sleep_time` |
| Timer.MeasureSubprocess | cafy_pytest/cafy_timer.py:32-44 | calls the original once, returns its result unchanged, and adds the elapsed seconds to `bash_time` |
| Timer.Protocol | cafy_pytest/cafy_timer.py:62-85 | records the start time and makes the test's key current |
| Timer.Teardown | cafy_pytest/cafy_timer.py:87-95 | adds the time since the protocol hook under `total_time` and clears `total_execution_time`; raises TypeError when no start time was recorded |
| Timer.Report | cafy_pytest/cafy_timer.py:104-115 | exactly one row per ledger test; missing sleep, bash or total times read 0; the Exec, Config and Inter-Commands-Delay fields are None |
| Timer.Replay | cafy_pytest/cafy_timer.py:46-60 | a run of timed events never removes a test or a category |
| Timer.ReplaySums | cafy_pytest/cafy_timer.py:46-60 | after any run of timed events, each test and category holds its previous value plus exactly the sum of its events' seconds, and exists iff it existed or some event named it |
| Timer.ReportOfReplay | cafy_pytest/cafy_timer.py:97-115 | from a fresh plugin, a test's report row holds the summed seconds of its sleeps, subprocess runs and teardown totals |
| RunInfo.StepExit | cafy_pytest/cafy.py:62-80 | returns `not blocking`; a non-blocking step that saw an exception appends its value to `active_exceptions` and its record to `block_exception`; any other step leaves the state unchanged |
| RunInfo.RunSteps | cafy_pytest/cafy.py:62-80 | a run of steps only appends to the two lists, and leaves the current test and its failures alone |
| RunInfo.RunStepsRecords | cafy_pytest/cafy.py:62-80 | a run of steps appends exactly the exceptions its non-blocking steps swallowed, in order, to `active_exceptions`, and exactly their `(type, value, traceback)` records to `block_exception`, and lets out exactly the first blocking failure |
| RunInfo.ScopeEnter | cafy_pytest/cafy.py:87-90 | both lists are emptied and the current test's failures reset to `[]`; other tests' failures are untouched |
| RunInfo.ScopeExit | cafy_pytest/cafy.py:92-101 | recorded exceptions are raised as one CompositeError in recording order and both lists are emptied; with none recorded, `block_exception` and the current test's failures are reset and the body's own exception goes on |
| RunInfo.Scope | cafy_pytest/cafy.py:87-101 | a scope leaves both lists empty and keeps the current test; a composite error it raises is never empty |
| RunInfo.ScopeOutcome | cafy_pytest/cafy.py:87-101 | a scope raises the composite of exactly the swallowed exceptions, or else the first blocking failure, or nothing; both lists end empty and the current test has no failures |
| RunInfo.NewlinesToBreaks | cafy_pytest/cafy.py:36-37 | the HTML text holds no newline; what replaces each character is stated by `NewlinesToBreaksChar` and `NewlinesToBreaksAppend` |
| RunInfo.NewlinesToBreaksLength | cafy_pytest/cafy.py:37 | each newline becomes the four extra characters of `<br/>` |
| RunInfo.NewlinesToBreaksChar | cafy_pytest/cafy.py:37 | a single newline becomes `<br/>`; any other single character is kept |
| RunInfo.NewlinesToBreaksAppend | cafy_pytest/cafy.py:37 | the conversion of a concatenation is the concatenation of the conversions, so with the one-character case it fixes the result for every text |
| RunInfo.NewlinesToBreaksKeepsAngle | cafy_pytest/cafy.py:37 | a text holding '<' is converted the same way: `"<\n"` becomes `"<<br/>"` |
| RunInfo.BreaksRoundTrip | cafy_pytest/cafy.py:35-37 | for a text without '<', turning `<br/>` back into newlines recovers the original text |
| RunInfo.MakeStatus | cafy_pytest/cafy.py:27-39 | the text message is the chained message or `str(message)`; the HTML message is "" for a None text, and otherwise `NewlinesToBreaks` of the text, for any text (including ones that hold '<'); the length grows by four per newline, and no newline remains |
| PdbEnv.Matches | cafy_pytest/cafy_pdb.py:253-258 | a pattern matches iff it occurs somewhere in the key, comparing letters without case |
| PdbEnv.MatchesIffOccurs | cafy_pytest/cafy_pdb.py:253-258 | a substring test on upper-cased text is the same as a case-blind match at some position |
| PdbEnv.FirstMatch | cafy_pytest/cafy_pdb.py:273-284 | the index of the first pattern that matches; none before it does |
| PdbEnv.Classify | cafy_pytest/cafy_pdb.py:273-286 | Other iff none of the six patterns occurs; otherwise the bucket of a matching pattern before which no pattern in the order REPO, PATH, SSH, HOME, ROOT, VIRTUAL matches |
| PdbEnv.Categorise | cafy_pytest/cafy_pdb.py:261-286 | all seven buckets exist; every variable is listed under its own bucket with its value unchanged, and nothing else is listed |
| PdbEnv.CategoriseIsPartition | cafy_pytest/cafy_pdb.py:272-286 | every variable is in exactly one bucket |
| PdbEnv.NoMatchWithoutFirstLetter | cafy_pytest/cafy_pdb.py:273 | a pattern whose first letter occurs nowhere in the key does not match |
| PdbEnv.PathBeforeHome | cafy_pytest/cafy_pdb.py:273-276 | `HOMEPATH` is listed under Path, because PATH is tried before HOME |
| PdbEnv.LowerCaseMatches | cafy_pytest/cafy_pdb.py:255 | a lower-case `ssh_sock` is listed under SSH |
| PdbCapture.FeedFrame | cafy_pytest/cafy_pdb.py:38-40 | a write through a stack of wrappers touches only their own capture buffers of that stream |
| PdbCapture.FeedOutermost | cafy_pytest/cafy_pdb.py:33-41 | the outermost wrapper's buffer receives each write exactly once |
| PdbCapture.Write | cafy_pytest/cafy_pdb.py:38-40 | the real stream receives the text, the other stream and the installed wrappers are unchanged |
| PdbCapture.WriteFrame | cafy_pytest/cafy_pdb.py:38-40 | captures whose wrapper is not installed are untouched, and what each capture remembers is unchanged |
| PdbCapture.NewCapture | cafy_pytest/cafy_pdb.py:15-19 | a new capture has empty buffers and remembers the streams installed at that moment |
| PdbCapture.Start | cafy_pytest/cafy_pdb.py:21-23 | wraps whatever streams are installed now |
| PdbCapture.Stop | cafy_pytest/cafy_pdb.py:25-27 | reinstalls the streams remembered at construction, whatever is installed now |
| PdbCapture.CapturedOutput | cafy_pytest/cafy_pdb.py:29-30 | the stdout buffer followed by the stderr buffer |
| PdbCapture.TeeRoundTrip | cafy_pytest/cafy_pdb.py:14-41 | a started capture sees exactly what was written to stdout then stderr, the real streams still receive it, and stopping reinstalls the original streams |
| PdbCapture.Entry | cafy_pytest/cafy_pdb.py:69-76 | a transcript entry always starts with `> {line} command executed`, and adds an `Output of` section iff the captured output is non-empty |
| PdbCapture.PostCmdWith | cafy_pytest/cafy_pdb.py:68-79 | for a debugger whose capture exists: the transcript grows by one entry holding what the current capture saw (nothing for a quit); the real streams are untouched; a quit command stops the current capture; any other command installs a new empty capture over the streams installed now (as written) or over those the current capture remembers (stopped first) |
| PdbCapture.PostCmdHook | cafy_pytest/cafy_pdb.py:68-79 | on any session: the `command executed` line is always logged; a session with no `output_capture` (not entered through `post_mortem`) then raises AttributeError and nothing else changes; otherwise it is `PostCmdWith` |
| PdbCapture.PostCmdAsWritten | cafy_pytest/cafy_pdb.py:68-79 | the code as written: the transcript only grows |
| PdbCapture.PostCmd | cafy_pytest/cafy_pdb.py:68-79 | the corrected hook: the transcript only grows |
| PdbCapture.Step | cafy_pytest/cafy_pdb.py:38-40 | a command's output reaches the real streams in full, and no capture is discarded |
| PdbCapture.Interact | cafy_pytest/cafy_pdb.py:68-79 | the prompt loop over the commands it actually runs, stopping after a quit; no capture is discarded |
| PdbCapture.PostMortemWith | cafy_pytest/cafy_pdb.py:91-94 | a session builds at least one capture and ends by reinstalling the streams its last capture remembered |
| PdbCapture.FreshCaptureSeesCommand | cafy_pytest/cafy_pdb.py:29-40 | under a fresh capture, its captured output is exactly what the command wrote |
| PdbCapture.StepLogsOutput | cafy_pytest/cafy_pdb.py:68-78 | a command is logged with exactly the output it wrote |
| PdbCapture.StartedCaptureIsFresh | cafy_pytest/cafy_pdb.py:15-23 | a capture just built and started is empty and outermost |
| PdbCapture.StepKeepsFresh | cafy_pytest/cafy_pdb.py:73-78 | a command that does not quit leaves a fresh capture for the next one |
| PdbCapture.InteractLogsTranscript | cafy_pytest/cafy_pdb.py:68-79 | every command up to the first quit is logged in order with exactly what it wrote, in both variants |
| PdbCapture.PostMortemLogsTranscript | cafy_pytest/cafy_pdb.py:91-94 | a whole debugger session logs that transcript |
| PdbCapture.InteractStaysAnchored | cafy_pytest/cafy_pdb.py:70-78 | with the previous capture stopped first, the installed streams are always the session's original ones, possibly under the current capture |
| PdbCapture.PostMortemRestoresStreams | cafy_pytest/cafy_pdb.py:91-94 | with the corrected hook, a session leaves the streams it found installed |
| PdbCapture.PostMortemLeavesWrapper | cafy_pytest/cafy_pdb.py:68-94 | as written, a session of `p 1` then `q` leaves the first capture's wrapper installed |

## Left out

- Clocks (`time.perf_counter`), the real `time.sleep` and `subprocess.run`, the wrapped methods themselves: these are inputs. An original callable is a function returning `Result`.
- Monkey-patching (`time.sleep = …`, `setattr` on classes): wrappers are plain functions that the model calls explicitly. `GtaPatch` counts wrapper layers per member rather than building closures.
- Reflection:
  - `inspect.getmembers`/`getmodule` become a class-name list and a class table;
  - frame introspection in `measure_sleep_time` becomes a `Caller` input;
  - `inspect.getmro(cls)[0]` is the class itself, so only its name is used.
- The `_decorated` marker is read on the class itself. Inheriting it through the MRO from a marked base class is not modelled.
- GtaPatch.WrapModule: a class lists only its own functions. In Python `getmembers` also lists inherited ones, and the loop wraps them again on the subclass. With `Base.set_x` and `TestA(Base)` in one module, a call through `TestA` then passes two wrappers, each recording one sample, under `Base.set_x` and `TestA.set_x`. The model gives one wrapper.
- GtaPatch.Patch: inherits the same gap as `WrapModule`, for class hierarchies within one module.
- GtaPatch.PatchOnceKeepsWrappedOnce: "exactly one wrapper" is proved only for classes with no inherited set/get members. Under the corrected loop a subclass wrapped after its base still stacks its wrapper on the base's.
- TestIdentity.IdentityInjective: the key omits the module and the class identity, so it identifies a test only up to class name and test name (`IdentityCollidesAcrossModules`). A test without a class whose name holds '.' (a parametrized id like `test_f[1.5]`) does not split back.
- `callable(method) and … or …` at `cafy_gta.py:118` reads as "set or get name", because every member `getmembers(…, isfunction)` returns is callable.
- Float formatting and parsing (`'%.2f'`, `"{:.2f}"`, `float()`): gta times are integer hundredths of a microsecond. The report keeps totals as integers rather than formatted strings.
- Timer seconds are exact `real`s. Floating-point rounding of the running sums is not modelled.
- Dict iteration order: maps are unordered. The report's iteration order is an input sequence.
- `method.replace(".", ".")` in the transform is the identity, so the record's source is the key itself.
- Error paths of the transform on shapes the report never produces (a category whose value is not a map) are modelled only as a single `TypeError`.
- Writing `cafy_gta.json` and `granular_time_report.json`, the `requests.post` upload in `add_gta_data_into_db`, `CafyGTA_Configs`, and the HTML report.
- `cls_debug.py` (HTTP registration and polling) and `setup.py`.
- Allure attachments, log banners, and the printing in `StepContext.__exit__` and `do_show_locals`.
- Topology, router and device commands, `do_help` and `do_quit` in `cafy_pdb.py`.
- PdbCapture.PostCmdWith: requires that the capture it reads exists. The missing-capture case, a session not entered through `post_mortem`, is the AttributeError branch of `PostCmdHook`.
- pdb's own loop control: `c`, `n`, `s` or `r` leave the prompt as well as a quit. `Interact` is given exactly the commands the loop ran.
- The `lastcmd` shortcut and stream restoration at the start of `post_mortem` (`cafy_pdb.py:82-88`). Only the capture part of `post_mortem` (lines 91-94) is modelled.
- PdbEnv.Matches: case folding is ASCII only; Python's `re.IGNORECASE` also folds non-ASCII letters.
- Timer.Teardown: the clock reading `now` is an input, so the model does not know it is at least the start time.
- RunInfo.MakeStatus: `message.chain[0][1].message` is an input (`chained`) rather than a lookup on an exception object.

## Findings

| source | as written | input that shows it | evidently intended | confidence | as-written member | corrected member |
|---|---|---|---|---|---|---|
| cafy_pytest/cafy_gta.py:87-98 | `self.original_sleep(duration)` sits inside `if caller_method is not None`, so the sleep only happens when the caller's method resolves on its class | `time.sleep(5)` from a module-level test function `test_wait`: `f_locals.get('self')` is None, its class is `NoneType`, `getattr` finds nothing, and the test does not sleep at all | the original sleep always runs once, and only the recording depends on the caller resolving | not executed | GtaLedger.SleepCallAsWritten | GtaLedger.SleepCall |
| cafy_pytest/cafy_gta.py:108-126 | `_decorated` is read and set on the test's own class only, but every class of the module is wrapped | a module with test classes `TestA` (with `set_vlan`) and `TestB`: the first test of `TestA` wraps both classes and marks `TestA`; the first test of `TestB` finds `TestB` unmarked and wraps both again, so `set_vlan` sits in two wrappers, and each wrapper records one sample per call (`SetOrGetCall`) | each class's methods are wrapped once, as the guard's comment about recursion depth says | not executed | GtaPatch.PatchWrapsTwice | GtaPatch.PatchOnceKeepsWrappedOnce |
| cafy_pytest/cafy_pdb.py:68-94 | `postcmd` builds the next `OutputCapture` while the previous capture's wrappers are still installed, so each capture remembers its predecessor's wrapper; `q` and the final `stop_capture` undo only the last layer | a debugger session `p 1`, `q`: afterwards `sys.stdout` is still the first capture's `StreamWrapper`, and all later output keeps being copied into its buffer | the session leaves `sys.stdout` and `sys.stderr` as it found them | not executed | PdbCapture.PostMortemLeavesWrapper | PdbCapture.PostMortemRestoresStreams |

=== FILE: gta_ledger.dfy ===
/**
 * The nested ledger of the granular time collector:
 * test -> category -> operation key -> samples, with the set/get and sleep
 * wrappers that feed it and the teardown merge of the logger's own channel.
 */
module GtaLedger {
  import opened Wrappers
  import opened Strings

  /** "infra" or "non-infra": where the timed code lives. */
  datatype Tag = Infra | NonInfra

  /**
   * One `[elapsed, tag]` pair. Elapsed time is in hundredths of a microsecond:
   * the wrappers format microseconds with two decimals before storing them.
   */
  datatype Sample = Sample(elapsed: int, tag: Option<Tag>)

  /**
   * The value under an operation key: the sample list the wrappers append to,
   * or a bare number copied in from the logger's channel.
   */
  datatype Entry = Samples(samples: seq<Sample>) | Scalar(value: int)

  /** `test_case_name` is None until the first test starts. */
  type TestKey = Option<string>
  type Operations = map<string, Entry>
  type Events = map<string, Operations>
  type Ledger = map<TestKey, Events>

  const SetCommand := "set_command"
  const GetCommand := "get_command"
  const SleepTime := "sleep_time"

  /** `command_list`: the categories merged at teardown and reported. */
  const Commands := [SetCommand, GetCommand, SleepTime]

  /** `a` and `b` agree everywhere except possibly at key `k`. */
  ghost predicate SameExcept<K, V>(a: map<K, V>, b: map<K, V>, k: K) {
    && a.Keys - {k} == b.Keys - {k}
    && forall k' | k' in a && k' != k :: k' in b && a[k'] == b[k']
  }

  /** The samples already under a key; none when the key is missing. */
  function SamplesAt(l: Ledger, test: TestKey, event: string, key: string): seq<Sample> {
    if test in l && event in l[test] && key in l[test][event] && l[test][event][key].Samples?
    then l[test][event][key].samples
    else []
  }

  /** The key holds a bare number, which has no `append`. */
  predicate HoldsScalar(l: Ledger, test: TestKey, event: string, key: string) {
    test in l && event in l[test] && key in l[test][event] && l[test][event][key].Scalar?
  }

  /** Sum of the elapsed times of a sample list. */
  function SampleSum(s: seq<Sample>): int {
    if |s| == 0 then 0 else s[0].elapsed + SampleSum(s[1..])
  }

  /** Appending a sample adds its elapsed time to the sum. */
  lemma {:induction false} SampleSumAppend(s: seq<Sample>, x: Sample)
    ensures SampleSum(s + [x]) == SampleSum(s) + x.elapsed
  {
    if |s| > 0 {
      assert (s + [x])[1..] == s[1..] + [x];
      SampleSumAppend(s[1..], x);
    }
  }

  /** `update_granular_time_testcase_dict`: auto-vivify the three levels, then append. */
  function Record(l: Ledger, test: TestKey, event: string, key: string, elapsed: int, tag: Option<Tag>): (r: Result<Ledger>)
    ensures r.Err? <==> HoldsScalar(l, test, event, key)
    ensures r.Err? ==> r.error == AttributeError
    ensures r.Ok? ==>
      && r.value.Keys == l.Keys + {test}
      && SameExcept(r.value, l, test)
      && r.value[test].Keys == (if test in l then l[test].Keys else {}) + {event}
      && (test in l ==> SameExcept(r.value[test], l[test], event))
      && r.value[test][event].Keys == (if test in l && event in l[test] then l[test][event].Keys else {}) + {key}
      && (test in l && event in l[test] ==> SameExcept(r.value[test][event], l[test][event], key))
      && r.value[test][event][key] == Samples(SamplesAt(l, test, event, key) + [Sample(elapsed, tag)])
  {
    var events := if test in l then l[test] else map[];
    var ops := if event in events then events[event] else map[];
    var entry := if key in ops then ops[key] else Samples([]);
    match entry
    case Scalar(_) => Err(AttributeError)
    case Samples(s) => Ok(l[test := events[event := ops[key := Samples(s + [Sample(elapsed, tag)])]]])
  }

  /** Recording adds exactly the new elapsed time to the key's running sum, and one to its count. */
  lemma RecordAddsOneSample(l: Ledger, test: TestKey, event: string, key: string, elapsed: int, tag: Option<Tag>)
    requires !HoldsScalar(l, test, event, key)
    ensures Record(l, test, event, key, elapsed, tag).Ok?
    ensures var l' := Record(l, test, event, key, elapsed, tag).value;
      && SampleSum(SamplesAt(l', test, event, key)) == SampleSum(SamplesAt(l, test, event, key)) + elapsed
      && |SamplesAt(l', test, event, key)| == |SamplesAt(l, test, event, key)| + 1
  {
    var s := SamplesAt(l, test, event, key);
    var r := Record(l, test, event, key, elapsed, tag);
    assert r.value[test][event][key] == Samples(s + [Sample(elapsed, tag)]);
    assert SamplesAt(r.value, test, event, key) == s + [Sample(elapsed, tag)];
    SampleSumAppend(s, Sample(elapsed, tag));
  }

  /** The code object behind a Python function: its `__name__` and `__code__.co_filename`. */
  datatype PyFunction = PyFunction(name: string, path: string)

  /** `get_method_type`: None for an empty path, "non-infra" under the feature or hardware library. */
  function MethodType(path: string): (r: Option<Tag>)
    ensures r.None? <==> path == ""
    ensures r == Some(NonInfra) <==> path != "" && (Occurs(path, "lib/feature_lib") || Occurs(path, "lib/hw"))
    ensures r == Some(Infra) <==> path != "" && !Occurs(path, "lib/feature_lib") && !Occurs(path, "lib/hw")
  {
    if path == "" then None
    else if Contains(path, "lib/feature_lib") || Contains(path, "lib/hw") then Some(NonInfra)
    else Some(Infra)
  }

  /** The category a wrapped method's `__name__` selects; `set` wins over `get`. */
  function CategoryOf(name: string): (r: Option<string>)
    ensures r == Some(SetCommand) <==> StartsWith(name, "set")
    ensures r == Some(GetCommand) <==> !StartsWith(name, "set") && StartsWith(name, "get")
    ensures r.None? <==> !StartsWith(name, "set") && !StartsWith(name, "get")
  {
    if StartsWith(name, "set") then Some(SetCommand)
    else if StartsWith(name, "get") then Some(GetCommand)
    else None
  }

  /**
   * One call through a wrapper: the arguments the original callable received
   * (in order), what the caller sees, and the ledger afterwards.
   */
  datatype Invocation<A, R> = Invocation(forwarded: seq<A>, outcome: Result<R>, ledger: Ledger)

  /**
   * The wrapper `measure_time_for_set_or_get_methods` installs around `fn`,
   * found on the class bound to `clsName`. The original is called once; if it
   * raises, the exception escapes before anything is recorded. The clock is
   * an input: `elapsed` is the measured duration of that one call.
   */
  function SetOrGetCall<A, R>(l: Ledger, test: TestKey, clsName: string, fn: PyFunction,
                               original: A -> Result<R>, arg: A, elapsed: int): (r: Invocation<A, R>)
    ensures r.forwarded == [arg]
    ensures original(arg).Err? ==> r.outcome == original(arg) && r.ledger == l
    ensures original(arg).Ok? && CategoryOf(fn.name).Some? ==>
      var key := clsName + "." + fn.name;
      var event := CategoryOf(fn.name).value;
      if HoldsScalar(l, test, event, key) then r.outcome == Err(AttributeError) && r.ledger == l
      else
        && r.outcome == original(arg)
        && Record(l, test, event, key, elapsed, MethodType(fn.path)) == Ok(r.ledger)
    ensures original(arg).Ok? && CategoryOf(fn.name).None? ==>
      && r.outcome == original(arg)
      && r.ledger == (if test in l then l else l[test := map[]])
  {
    match original(arg)
    case Err(e) => Invocation([arg], Err(e), l)
    case Ok(v) =>
      match CategoryOf(fn.name)
      case None =>
        // the wrapper creates the test's map before classifying the name
        Invocation([arg], Ok(v), if test in l then l else l[test := map[]])
      case Some(event) =>
        match Record(l, test, event, clsName + "." + fn.name, elapsed, MethodType(fn.path))
        case Err(e) => Invocation([arg], Err(e), l)
        case Ok(l2) => Invocation([arg], Ok(v), l2)
  }

  /** The frame that called `time.sleep`: its class, the method name, and what `getattr` finds. */
  datatype Caller = Caller(className: string, methodName: string, resolved: Option<PyFunction>)

  /** The operation key of a sleep: `Caller.method.time.sleep`. */
  function SleepKey(className: string, fn: PyFunction): (key: string)
    ensures |key| == |className| + |fn.name| + 12
    ensures key[..|className|] == className && key[|className|] == '.'
    ensures key[|className| + 1..|className| + 1 + |fn.name|] == fn.name
    ensures key[|key| - 11..] == ".time.sleep"
  {
    className + "." + fn.name + ".time.sleep"
  }

  /**
   * `measure_sleep_time` as written: the original sleep is only called when the
   * caller's method resolves on its class. A module-level test function has no
   * `self`, its class is `NoneType`, the lookup fails, and the sleep is skipped.
   */
  function SleepCallAsWritten<D>(l: Ledger, test: TestKey, caller: Caller,
                                 sleep: D -> Result<()>, duration: D, elapsed: int): (r: Invocation<D, ()>)
    ensures caller.resolved.None? ==> r.forwarded == [] && r.outcome == Ok(()) && r.ledger == l
    ensures caller.resolved.Some? ==> r.forwarded == [duration]
    ensures caller.resolved.Some? ==> r == SleepRecorded(l, test, caller.className, caller.resolved.value, sleep, duration, elapsed)
  {
    match caller.resolved
    case None => Invocation([], Ok(()), l)
    case Some(m) => SleepRecorded(l, test, caller.className, m, sleep, duration, elapsed)
  }

  /** A sleep whose caller resolved: forward once, then file one sample under `sleep_time`. */
  function SleepRecorded<D>(l: Ledger, test: TestKey, className: string, m: PyFunction,
                            sleep: D -> Result<()>, duration: D, elapsed: int): (r: Invocation<D, ()>)
    ensures r.forwarded == [duration]
    ensures sleep(duration).Err? ==> r.outcome == sleep(duration) && r.ledger == l
    ensures sleep(duration).Ok? ==>
      if HoldsScalar(l, test, SleepTime, SleepKey(className, m)) then r.outcome == Err(AttributeError) && r.ledger == l
      else r.outcome == Ok(()) && Record(l, test, SleepTime, SleepKey(className, m), elapsed, MethodType(m.path)) == Ok(r.ledger)
  {
    match sleep(duration)
    case Err(e) => Invocation([duration], Err(e), l)
    case Ok(_) =>
      match Record(l, test, SleepTime, SleepKey(className, m), elapsed, MethodType(m.path))
      case Err(e) => Invocation([duration], Err(e), l)
      case Ok(l2) => Invocation([duration], Ok(()), l2)
  }

  /** A sleep from a module-level function never reaches the original sleep. */
  lemma SleepSkippedWithoutSelf(l: Ledger, test: TestKey, sleep: real -> Result<()>)
    ensures SleepCallAsWritten(l, test, Caller("NoneType", "test_wait", None), sleep, 5.0, 0).forwarded == []
  {
  }

  /**
   * The sleep wrapper as intended: the original sleep runs exactly once
   * whatever the caller, and a sample is filed only when the caller resolves.
   */
  function SleepCall<D>(l: Ledger, test: TestKey, caller: Caller,
                        sleep: D -> Result<()>, duration: D, elapsed: int): (r: Invocation<D, ()>)
    ensures r.forwarded == [duration]
    ensures caller.resolved.None? ==> r.outcome == sleep(duration) && r.ledger == l
    ensures caller.resolved.Some? ==> r == SleepRecorded(l, test, caller.className, caller.resolved.value, sleep, duration, elapsed)
  {
    match caller.resolved
    case None => Invocation([duration], sleep(duration), l)
    case Some(m) => SleepRecorded(l, test, caller.className, m, sleep, duration, elapsed)
  }

  /** The logger's own timing channel `CafyLog.gta_dict`; None while the attribute does not exist. */
  type Channel = Option<map<string, Operations>>

  /** `update_gta_dict`: make sure the category exists, then copy the channel's entries over it. */
  function MergeCommand(events: Events, command: string, channel: Channel): (r: Events)
    ensures r.Keys == events.Keys + {command}
    ensures SameExcept(r, events, command)
    ensures var before := if command in events then events[command] else map[];
      && (channel.Some? && command in channel.value ==>
            && r[command].Keys == before.Keys + channel.value[command].Keys
            && (forall k | k in channel.value[command] :: r[command][k] == channel.value[command][k])
            && (forall k | k in before && k !in channel.value[command] :: r[command][k] == before[k]))
      && (channel.None? || command !in channel.value ==> r[command] == before)
  {
    var before := if command in events then events[command] else map[];
    if channel.Some? && command in channel.value then events[command := before + channel.value[command]]
    else events[command := before]
  }

  /** Merges the channel's three categories into one test's events. */
  function MergeCommands(events: Events, commands: seq<string>, channel: Channel): (r: Events)
    ensures r.Keys == events.Keys + set c | c in commands
    ensures forall c | c in events && c !in commands :: c in r && r[c] == events[c]
    decreases |commands|
  {
    if |commands| == 0 then events
    else MergeCommands(MergeCommand(events, commands[0], channel), commands[1..], channel)
  }

  /** `update_CafyLog_gta_dict` followed by `CafyLog.gta_dict = {}`: merge, then drain the channel. */
  function Teardown(l: Ledger, test: TestKey, channel: Channel): (r: (Ledger, Channel))
    ensures r.1 == Some(map[])
    ensures r.0.Keys == l.Keys + {test}
    ensures SameExcept(r.0, l, test)
    ensures SetCommand in r.0[test] && GetCommand in r.0[test] && SleepTime in r.0[test]
    ensures forall c | test in l && c in l[test] && c !in Commands :: c in r.0[test] && r.0[test][c] == l[test][c]
  {
    var events := if test in l then l[test] else map[];
    (l[test := MergeCommands(events, Commands, channel)], Some(map[]))
  }

  /**
   * After teardown each of the three categories holds exactly the channel's
   * entries over the ledger's own, for that test only.
   */
  lemma {:induction false} TeardownMerges(l: Ledger, test: TestKey, channel: Channel, c: string)
    requires c in Commands
    ensures var r := Teardown(l, test, channel).0;
      var before := if test in l && c in l[test] then l[test][c] else map[];
      && (channel.Some? && c in channel.value ==>
            && r[test][c].Keys == before.Keys + channel.value[c].Keys
            && (forall k | k in channel.value[c] :: r[test][c][k] == channel.value[c][k])
            && (forall k | k in before && k !in channel.value[c] :: r[test][c][k] == before[k]))
      && (channel.None? || c !in channel.value ==> r[test][c] == before)
  {
    var events := if test in l then l[test] else map[];
    var e1 := MergeCommand(events, SetCommand, channel);
    var e2 := MergeCommand(e1, GetCommand, channel);
    var e3 := MergeCommand(e2, SleepTime, channel);
    assert MergeCommands(events, Commands, channel) == e3 by {
      assert Commands[0] == SetCommand && Commands[1..] == [GetCommand, SleepTime];
      assert Commands[1..][1..] == [SleepTime] && Commands[1..][1..][1..] == [];
      assert [GetCommand, SleepTime][1..] == [SleepTime] && [SleepTime][1..] == [];
      assert MergeCommands(events, Commands, channel) == MergeCommands(e1, [GetCommand, SleepTime], channel);
      assert MergeCommands(e1, [GetCommand, SleepTime], channel) == MergeCommands(e2, [SleepTime], channel);
      assert MergeCommands(e2, [SleepTime], channel) == MergeCommands(e3, [], channel);
    }
    assert Teardown(l, test, channel).0[test] == e3;
    var before := if c in events then events[c] else map[];
    assert before == (if test in l && c in l[test] then l[test][c] else map[]);
    if c == SetCommand {
      assert e3[c] == e2[c] == e1[c];
    } else if c == GetCommand {
      assert e3[c] == e2[c];
      assert (if c in e1 then e1[c] else map[]) == before;
    } else {
      assert (if c in e2 then e2[c] else map[]) == before;
    }
  }

  /** The channel's sample lists, merged at teardown, keep every value unchanged: `{"method1": 1.23}` lands as-is. */
  lemma TeardownExample()
    ensures var ch := Some(map[SetCommand := map["method1" := Scalar(123)]]);
      var r := Teardown(map[], Some("test_case_1"), ch);
      && r.0[Some("test_case_1")][SetCommand] == map["method1" := Scalar(123)]
      && r.0[Some("test_case_1")][GetCommand] == map[]
      && r.1 == Some(map[])
  {
    var ch := Some(map[SetCommand := map["method1" := Scalar(123)]]);
    TeardownMerges(map[], Some("test_case_1"), ch, SetCommand);
    TeardownMerges(map[], Some("test_case_1"), ch, GetCommand);
  }
}

=== FILE: gta_patch.dfy ===
/**
 * Installation of the set/get wrappers on the classes of a test module,
 * guarded by the `_decorated` class marker.
 */
module GtaPatch {
  import opened Wrappers
  import opened Strings
  import opened TestIdentity

  /**
   * A class as the patcher sees it: for each function member, how many
   * timing wrappers are stacked around it now, and its `_decorated` marker.
   */
  datatype PyClass = PyClass(functions: map<string, nat>, decorated: bool)

  /** Every class by its identity: same-named classes of different modules are different entries. */
  type Registry = map<PyType, PyClass>

  /** A member the patcher wraps: a `set`/`get` name other than `setup_method`. */
  predicate Qualifies(name: string) {
    (StartsWith(name, "set") || StartsWith(name, "get")) && name != "setup_method"
  }

  /** One more wrapper around every qualifying member of a class. */
  function WrapClass(c: PyClass): (r: PyClass)
    ensures r.decorated == c.decorated && r.functions.Keys == c.functions.Keys
  {
    c.(functions := map n | n in c.functions :: if Qualifies(n) then c.functions[n] + 1 else c.functions[n])
  }

  /** Occurrences of `x` in `s`. */
  function Count(s: seq<PyType>, x: PyType): nat {
    if |s| == 0 then 0 else (if s[0] == x then 1 else 0) + Count(s[1..], x)
  }

  /**
   * The loop over the module's classes: every qualifying member of every
   * listed class gets one more wrapper per time the class is listed.
   */
  function WrapModule(reg: Registry, classes: seq<PyType>): (r: Registry)
    ensures r.Keys == reg.Keys
    ensures forall c | c in reg :: r[c].decorated == reg[c].decorated && r[c].functions.Keys == reg[c].functions.Keys
    ensures forall c, n | c in reg && n in reg[c].functions ::
      r[c].functions[n] == reg[c].functions[n] + (if Qualifies(n) then Count(classes, c) else 0)
    decreases |classes|
  {
    if |classes| == 0 then reg
    else
      var c := classes[0];
      var reg1 := if c in reg then reg[c := WrapClass(reg[c])] else reg;
      WrapModule(reg1, classes[1..])
  }

  /**
   * `patch_set_or_get_methods_for_test_instance` as written: the marker is
   * read and set on the test's own class only, yet every class of the module
   * is wrapped.
   */
  function Patch(reg: Registry, itemCls: Option<PyType>, classes: seq<PyType>): (r: Registry)
    requires itemCls.Some? ==> itemCls.value in reg
    ensures r.Keys == reg.Keys
    ensures itemCls.None? ==> r == reg
    ensures itemCls.Some? && reg[itemCls.value].decorated ==> r == reg
    ensures itemCls.Some? ==> r[itemCls.value].decorated
    ensures forall c | c in reg && Some(c) != itemCls :: r[c].decorated == reg[c].decorated
    ensures forall c | c in reg :: r[c].functions.Keys == reg[c].functions.Keys
    ensures itemCls.Some? && !reg[itemCls.value].decorated ==>
      forall c, n | c in reg && n in reg[c].functions ::
        r[c].functions[n] == reg[c].functions[n] + (if Qualifies(n) then Count(classes, c) else 0)
    ensures forall c | c in reg && "setup_method" in reg[c].functions ::
      r[c].functions["setup_method"] == reg[c].functions["setup_method"]
  {
    match itemCls
    case None => reg
    case Some(cls) =>
      if reg[cls].decorated then reg
      else
        var r1 := WrapModule(reg, classes);
        assert !Qualifies("setup_method");
        r1[cls := r1[cls].(decorated := true)]
  }

  /** Two test classes of one module, as the examples below use them. */
  const TestA := PyType(0, "TestA")
  const TestB := PyType(1, "TestB")

  /** Patching again for the same test class changes nothing. */
  lemma PatchIdempotent(reg: Registry, itemCls: Option<PyType>, classes: seq<PyType>)
    requires itemCls.Some? ==> itemCls.value in reg
    ensures Patch(Patch(reg, itemCls, classes), itemCls, classes) == Patch(reg, itemCls, classes)
  {
  }

  /**
   * Two test classes in one module: the second class's first test finds its
   * own class unmarked and wraps the whole module again, so the first class's
   * setter now sits inside two wrappers, each of which records one sample per call.
   */
  lemma PatchWrapsTwice()
    ensures var reg := map[TestA := PyClass(map["set_vlan" := 0], false), TestB := PyClass(map[], false)];
      var classes := [TestA, TestB];
      Patch(Patch(reg, Some(TestA), classes), Some(TestB), classes)[TestA].functions["set_vlan"] == 2
  {
    var classes := [TestA, TestB];
    assert Count(classes, TestA) == 1 by {
      assert classes[1..] == [TestB] && classes[1..][1..] == [];
      assert Count(classes[1..][1..], TestA) == 0;
      assert Count(classes[1..], TestA) == 0;
    }
  }

  /** Every qualifying member sits inside exactly one wrapper once its class is marked, and none before. */
  ghost predicate WrappedOnce(reg: Registry) {
    forall c, n | c in reg && n in reg[c].functions ::
      reg[c].functions[n] == (if reg[c].decorated && Qualifies(n) then 1 else 0)
  }

  /** The module loop with the marker checked and set on each class it wraps. */
  function WrapModuleOnce(reg: Registry, classes: seq<PyType>): (r: Registry)
    ensures r.Keys == reg.Keys
    ensures forall c | c in reg :: r[c].functions.Keys == reg[c].functions.Keys
    ensures forall c | c in reg && c !in classes :: r[c] == reg[c]
    ensures forall c | c in reg && c in classes :: r[c].decorated
    ensures forall c | c in reg && reg[c].decorated :: r[c] == reg[c]
    ensures forall c, n | c in reg && !reg[c].decorated && c in classes && n in reg[c].functions ::
      r[c].functions[n] == reg[c].functions[n] + (if Qualifies(n) then 1 else 0)
    decreases |classes|
  {
    if |classes| == 0 then reg
    else
      var c := classes[0];
      var reg1 := if c in reg && !reg[c].decorated then reg[c := WrapClass(reg[c]).(decorated := true)] else reg;
      WrapModuleOnce(reg1, classes[1..])
  }

  /** The patcher as intended: a class is wrapped at most once whichever of its module's tests comes first. */
  function PatchOnce(reg: Registry, itemCls: Option<PyType>, classes: seq<PyType>): (r: Registry)
    requires itemCls.Some? ==> itemCls.value in reg
    ensures r.Keys == reg.Keys
    ensures itemCls.None? ==> r == reg
    ensures itemCls.Some? ==> r[itemCls.value].decorated
    ensures itemCls.Some? && reg[itemCls.value].decorated ==> r == reg
  {
    match itemCls
    case None => reg
    case Some(cls) =>
      if reg[cls].decorated then reg
      else
        var r1 := WrapModuleOnce(reg, classes);
        r1[cls := r1[cls].(decorated := true)]
  }

  /** However many tests of however many modules patch, no member is ever wrapped twice. */
  lemma PatchOnceKeepsWrappedOnce(reg: Registry, itemCls: Option<PyType>, classes: seq<PyType>)
    requires itemCls.Some? ==> itemCls.value in reg && itemCls.value in classes
    requires WrappedOnce(reg)
    ensures WrappedOnce(PatchOnce(reg, itemCls, classes))
  {
  }

  /** With the corrected patcher the two-class module of `PatchWrapsTwice` ends with one wrapper. */
  lemma PatchOnceWrapsOnce()
    ensures var reg := map[TestA := PyClass(map["set_vlan" := 0], false), TestB := PyClass(map[], false)];
      var classes := [TestA, TestB];
      PatchOnce(PatchOnce(reg, Some(TestA), classes), Some(TestB), classes)[TestA].functions["set_vlan"] == 1
  {
  }
}

=== FILE: gta_plugin.dfy ===
/**
 * The granular time collector as a whole: its state record and the three
 * runner hooks that drive it. Wrapper installation on `time.sleep` and on
 * classes is replaced by explicit calls of the wrapper functions.
 */
module GtaPlugin {
  import opened Wrappers
  import opened TestIdentity
  import opened GtaLedger
  import opened GtaPatch
  import opened GtaReport

  /** `TimeCollectorPlugin`'s fields, the class table it patches, and the logger's channel. */
  datatype Plugin = Plugin(ledger: Ledger, testName: TestKey, totals: Totals, classes: Registry, channel: Channel)

  /** `__init__`: an empty ledger, no current test, zero accumulators. */
  function Init(classes: Registry, channel: Channel): (p: Plugin)
    ensures p.ledger == map[] && p.testName.None? && p.totals == Zero
  {
    Plugin(map[], None, Zero, classes, channel)
  }

  /**
   * `pytest_runtest_protocol`: install the wrappers for the test's module,
   * guarded by the marker of the test's own class, then make the test the
   * attribution target.
   */
  function Protocol(p: Plugin, item: TestItem, moduleClasses: seq<PyType>): (r: Plugin)
    requires item.cls.Some? ==> item.cls.value in p.classes
    ensures r.testName == Some(Identity(item))
    ensures r.ledger == p.ledger && r.totals == p.totals && r.channel == p.channel
    ensures r.classes == Patch(p.classes, item.cls, moduleClasses)
  {
    p.(classes := Patch(p.classes, item.cls, moduleClasses), testName := Some(Identity(item)))
  }

  /** The protocol hook with the corrected patcher: each class is wrapped at most once. */
  function ProtocolOnce(p: Plugin, item: TestItem, moduleClasses: seq<PyType>): (r: Plugin)
    requires item.cls.Some? ==> item.cls.value in p.classes
    ensures r.testName == Some(Identity(item))
    ensures r.ledger == p.ledger && r.totals == p.totals && r.channel == p.channel
    ensures r.classes == PatchOnce(p.classes, item.cls, moduleClasses)
  {
    p.(classes := PatchOnce(p.classes, item.cls, moduleClasses), testName := Some(Identity(item)))
  }

  /**
   * Through the plugin: a test of `TestA` and then one of `TestB`, from the
   * same module, leave `TestA.set_vlan` inside two wrappers; with the
   * corrected hook it is inside one.
   */
  lemma ProtocolWrapsTwice(p: Plugin)
    requires p.classes == map[TestA := PyClass(map["set_vlan" := 0], false), TestB := PyClass(map[], false)]
    ensures var a, b := TestItem(Some(TestA), "test_a"), TestItem(Some(TestB), "test_b");
      && Protocol(Protocol(p, a, [TestA, TestB]), b, [TestA, TestB]).classes[TestA].functions["set_vlan"] == 2
      && ProtocolOnce(ProtocolOnce(p, a, [TestA, TestB]), b, [TestA, TestB]).classes[TestA].functions["set_vlan"] == 1
  {
    PatchWrapsTwice();
    PatchOnceWrapsOnce();
  }

  /** `pytest_runtest_teardown`: merge the channel into the current test, then empty it. */
  function RunTeardown(p: Plugin): (r: Plugin)
    ensures r.channel == Some(map[])
    ensures r.testName == p.testName && r.totals == p.totals && r.classes == p.classes
    ensures r.ledger.Keys == p.ledger.Keys + {p.testName}
    ensures SameExcept(r.ledger, p.ledger, p.testName)
    ensures SetCommand in r.ledger[p.testName] && GetCommand in r.ledger[p.testName] && SleepTime in r.ledger[p.testName]
  {
    var (l, ch) := Teardown(p.ledger, p.testName, p.channel);
    p.(ledger := l, channel := ch)
  }

  /**
   * A sleep issued from method `M` of class `C` while test `T` runs is filed
   * under `T`, `sleep_time`, `C.M.time.sleep`, tagged from `M`'s source path.
   */
  lemma SleepAttributedToCurrentTest<D>(p: Plugin, item: TestItem, moduleClasses: seq<PyType>,
                                        caller: Caller, sleep: D -> Result<()>, duration: D, elapsed: int)
    requires item.cls.Some? ==> item.cls.value in p.classes
    requires caller.resolved.Some? && sleep(duration).Ok?
    requires !HoldsScalar(p.ledger, Some(Identity(item)), SleepTime, SleepKey(caller.className, caller.resolved.value))
    ensures var p1 := Protocol(p, item, moduleClasses);
      var m := caller.resolved.value;
      var call := SleepCallAsWritten(p1.ledger, p1.testName, caller, sleep, duration, elapsed);
      && call.forwarded == [duration]
      && call.outcome == Ok(())
      && SamplesAt(call.ledger, Some(Identity(item)), SleepTime, caller.className + "." + m.name + ".time.sleep")
         == SamplesAt(p.ledger, Some(Identity(item)), SleepTime, caller.className + "." + m.name + ".time.sleep")
            + [Sample(elapsed, MethodType(m.path))]
  {
    var p1 := Protocol(p, item, moduleClasses);
    var m := caller.resolved.value;
    var key := SleepKey(caller.className, m);
    var l := Record(p.ledger, p1.testName, SleepTime, key, elapsed, MethodType(m.path));
    assert SamplesAt(l.value, p1.testName, SleepTime, key) == SamplesAt(p.ledger, p1.testName, SleepTime, key) + [Sample(elapsed, MethodType(m.path))];
  }

  /**
   * What `getattr(caller_class, fn.name)` finds for a function `fn` of class
   * `c` while the class table is `reg`: `fn` itself until the patcher has
   * wrapped it, then the outermost timing wrapper. `functools.wraps` copies
   * the name onto the wrapper but not its code object, so the wrapper's
   * source path is the plugin's own file, `pluginPath`.
   */
  function Resolve(reg: Registry, c: PyType, fn: PyFunction, pluginPath: string): (r: PyFunction)
    ensures r.name == fn.name
    ensures c in reg && fn.name in reg[c].functions && reg[c].functions[fn.name] > 0 ==> r.path == pluginPath
    ensures !(c in reg && fn.name in reg[c].functions && reg[c].functions[fn.name] > 0) ==> r == fn
  {
    if c in reg && fn.name in reg[c].functions && reg[c].functions[fn.name] > 0 then PyFunction(fn.name, pluginPath)
    else fn
  }

  /** A class listed in the sequence is counted at least once. */
  lemma {:induction false} CountListed(s: seq<PyType>, x: PyType)
    requires x in s
    ensures Count(s, x) > 0
  {
    if s[0] != x {
      assert x in s[1..];
      CountListed(s[1..], x);
    }
  }

  /**
   * A `time.sleep` inside a setter of a class the protocol hook has just
   * wrapped is tagged from the plugin's file, not from the feature library
   * the setter was written in: with the plugin installed outside
   * `lib/feature_lib` and `lib/hw` the sample reads `infra`, whatever
   * `fn.path` is. The key still carries the setter's own name.
   */
  lemma SleepInWrappedSetterTaggedInfra<D>(p: Plugin, item: TestItem, moduleClasses: seq<PyType>,
                                           c: PyType, fn: PyFunction, pluginPath: string,
                                           sleep: D -> Result<()>, duration: D, elapsed: int)
    requires item.cls.Some? && item.cls.value in p.classes && !p.classes[item.cls.value].decorated
    requires c in p.classes && fn.name in p.classes[c].functions && Qualifies(fn.name) && c in moduleClasses
    requires MethodType(pluginPath) == Some(Infra)
    requires sleep(duration).Ok?
    requires !HoldsScalar(p.ledger, Some(Identity(item)), SleepTime, SleepKey(c.name, fn))
    ensures var p1 := Protocol(p, item, moduleClasses);
      var m := Resolve(p1.classes, c, fn, pluginPath);
      var call := SleepCallAsWritten(p1.ledger, p1.testName, Caller(c.name, fn.name, Some(m)), sleep, duration, elapsed);
      && m.name == fn.name
      && call.outcome == Ok(())
      && SamplesAt(call.ledger, Some(Identity(item)), SleepTime, c.name + "." + fn.name + ".time.sleep")
         == SamplesAt(p.ledger, Some(Identity(item)), SleepTime, c.name + "." + fn.name + ".time.sleep")
            + [Sample(elapsed, Some(Infra))]
  {
    var p1 := Protocol(p, item, moduleClasses);
    CountListed(moduleClasses, c);
    assert p1.classes[c].functions[fn.name] > 0;
    var m := Resolve(p1.classes, c, fn, pluginPath);
    assert m == PyFunction(fn.name, pluginPath);
    assert SleepKey(c.name, m) == SleepKey(c.name, fn);
    SleepAttributedToCurrentTest(p, item, moduleClasses, Caller(c.name, fn.name, Some(m)), sleep, duration, elapsed);
  }

  /** Each transformed test's `total_time` is its own three list totals, nothing from another test. */
  lemma TransformedTotals(events: Events)
    requires Reportable(events) && NoScalars(events)
    ensures var t := TransformRow(Some(ExpectedRow(events, Zero)));
      && t.Ok?
      && t.value.totals[TotalTime]
         == CategoryTotal(events, SleepTime) + CategoryTotal(events, SetCommand) + CategoryTotal(events, GetCommand)
      && t.value.totals[TotalSleepTime] == CategoryTotal(events, SleepTime)
      && t.value.totals[TotalSetCommandTime] == CategoryTotal(events, SetCommand)
      && t.value.totals[TotalGetCommandTime] == CategoryTotal(events, GetCommand)
  {
    TransformExpectedRow(events, Zero);
  }

  /** What the transform makes of one test's report row. */
  ghost predicate RowOutcome(events: Events, fromZero: bool, row: Option<Row>) {
    && (TransformRow(row).Ok? <==> NoScalars(events))
    && (TransformRow(row).Ok? ==>
          && TransformRow(row).value.categories.Keys == {SleepTime, SetCommand, GetCommand}
          && TransformRow(row).value.totals.Keys == {TotalSleepTime, TotalSetCommandTime, TotalGetCommandTime, TotalTime})
    && (TransformRow(row).Ok? && fromZero ==>
          TransformRow(row).value.totals[TotalTime]
            == CategoryTotal(events, SleepTime) + CategoryTotal(events, SetCommand) + CategoryTotal(events, GetCommand))
  }

  lemma ExpectedRowOutcome(events: Events, carried: Totals)
    requires Reportable(events)
    ensures RowOutcome(events, carried == Zero, Some(ExpectedRow(events, carried)))
  {
    TransformExpectedRowSucceeds(events, carried);
    if NoScalars(events) {
      TransformExpectedRow(events, carried);
      if carried == Zero {
        TransformedTotals(events);
      }
    }
  }

  /** Every row of a successful report transforms as its test's ledger entry says. */
  lemma ReportRowsOutcome(l: Ledger, order: seq<TestKey>, acc: Totals, report: map<TestKey, Row>, rows: map<TestKey, Option<Row>>)
    requires IsOrderOf(order, l)
    requires forall t | t in l :: Reportable(l[t])
    requires report.Keys == l.Keys
    requires forall i | 0 <= i < |order| :: report[order[i]] == ExpectedRow(l[order[i]], if i == 0 then acc else Zero)
    requires rows == map t | t in report :: Some(report[t])
    ensures rows.Keys == l.Keys
    ensures forall t | t in l :: RowOutcome(l[t], acc == Zero, rows[t])
  {
    forall t | t in l
      ensures RowOutcome(l[t], acc == Zero, rows[t])
    {
      var i :| 0 <= i < |order| && order[i] == t;
      var carried := if i == 0 then acc else Zero;
      assert rows[t] == Some(ExpectedRow(l[t], carried));
      ExpectedRowOutcome(l[t], carried);
    }
  }

  /** The whole transform from the per-row outcomes. */
  lemma TransformOutcome(l: Ledger, fromZero: bool, rows: map<TestKey, Option<Row>>)
    requires rows.Keys == l.Keys
    requires forall t | t in l :: RowOutcome(l[t], fromZero, rows[t])
    ensures var r := Transform(rows);
      && (r.Ok? <==> forall t | t in l :: NoScalars(l[t]))
      && (r.Ok? ==> r.value.Keys == l.Keys)
      && (r.Ok? ==> forall t | t in r.value ::
            && r.value[t].categories.Keys == {SleepTime, SetCommand, GetCommand}
            && r.value[t].totals.Keys == {TotalSleepTime, TotalSetCommandTime, TotalGetCommandTime, TotalTime})
      && (r.Ok? && fromZero ==> forall t | t in r.value ::
            r.value[t].totals[TotalTime]
              == CategoryTotal(l[t], SleepTime) + CategoryTotal(l[t], SetCommand) + CategoryTotal(l[t], GetCommand))
  {
  }

  /**
   * `pytest_terminal_summary` up to the file write: build the report in the
   * ledger's iteration order and transform it. It succeeds exactly when no
   * category holds an empty list or a channel number; then every test has
   * both maps, the three categories and the four totals.
   */
  method TerminalSummary(p: Plugin, order: seq<TestKey>) returns (r: Result<map<TestKey, Transformed>>, p': Plugin)
    requires IsOrderOf(order, p.ledger)
    ensures r.Ok? <==> forall t | t in p.ledger :: Reportable(p.ledger[t]) && NoScalars(p.ledger[t])
    ensures r.Ok? ==> r.value.Keys == p.ledger.Keys
    ensures r.Ok? ==> forall t | t in r.value ::
      && r.value[t].categories.Keys == {SleepTime, SetCommand, GetCommand}
      && r.value[t].totals.Keys == {TotalSleepTime, TotalSetCommandTime, TotalGetCommandTime, TotalTime}
    ensures r.Ok? && p.totals == Zero ==> p'.totals == Zero && forall t | t in r.value ::
      r.value[t].totals[TotalTime]
        == CategoryTotal(p.ledger[t], SleepTime) + CategoryTotal(p.ledger[t], SetCommand) + CategoryTotal(p.ledger[t], GetCommand)
  {
    var report, acc := CollectReport(p.ledger, order, p.totals);
    p' := p.(totals := acc);
    if report.Err? {
      r := Err(report.error);
      return;
    }
    var rows := map t | t in report.value :: Some(report.value[t]);
    ReportRowsOutcome(p.ledger, order, p.totals, report.value, rows);
    TransformOutcome(p.ledger, p.totals == Zero, rows);
    r := Transform(rows);
  }
}

=== FILE: gta_report.dfy ===
/**
 * Folding the ledger into the report: per operation sum, count and first
 * tag; per test the three category totals and their sum, with the
 * process-wide accumulators reset after every row; then the split of each
 * row into `categories` and `totals`.
 */
module GtaReport {
  import opened Wrappers
  import opened Strings
  import opened Sums
  import opened GtaLedger

  /** `[sum, count, tag of the first sample]` for a sample list, or a non-list value passed through. */
  datatype Summary = Aggregate(total: int, count: nat, tag: Option<Tag>) | PassedThrough(value: int)

  /** The plugin's accumulators `total_sleep_time`, `total_set_command_time`, `total_get_command_time`. */
  datatype Totals = Totals(sleep: int, setCommand: int, getCommand: int) {
    /** Adds `x` to the accumulator the event selects; other events add nothing. */
    function Add(event: string, x: int): Totals {
      if event == SleepTime then this.(sleep := sleep + x)
      else if event == SetCommand then this.(setCommand := setCommand + x)
      else if event == GetCommand then this.(getCommand := getCommand + x)
      else this
    }
  }

  const Zero := Totals(0, 0, 0)

  /** The summary of one ledger value; an empty list has no first sample to read a tag from. */
  function Summarise(e: Entry): (r: Result<Summary>)
    ensures r.Err? <==> e == Samples([])
  {
    match e
    case Samples(s) => if |s| == 0 then Err(IndexError) else Ok(Aggregate(SampleSum(s), |s|, s[0].tag))
    case Scalar(v) => Ok(PassedThrough(v))
  }

  /** Some key of the category holds an empty sample list. */
  predicate HasEmptyList(ops: Operations) {
    exists k | k in ops :: ops[k] == Samples([])
  }

  /** The sum of each sample list of a category, by key. */
  ghost function ListSums(ops: Operations): map<string, int> {
    map k | k in ops && ops[k].Samples? :: SampleSum(ops[k].samples)
  }

  /** What the category contributes to its accumulator: the sums of its list entries only. */
  ghost function ListTotal(ops: Operations): int {
    SumValues(ListSums(ops))
  }

  /** Taking one more key out of the unvisited set adds that key's list sum, if it holds a list. */
  lemma ListSumsStep(ops: Operations, remaining: set<string>, k: string)
    requires k in remaining && remaining <= ops.Keys
    ensures SumValues(ListSums(ops) - (remaining - {k}))
         == SumValues(ListSums(ops) - remaining) + (if ops[k].Samples? then SampleSum(ops[k].samples) else 0)
  {
    var done := ListSums(ops) - remaining;
    var done' := ListSums(ops) - (remaining - {k});
    if ops[k].Samples? {
      assert done' == done[k := SampleSum(ops[k].samples)];
      SumValuesInsert(done, k, SampleSum(ops[k].samples));
    } else {
      assert done' == done;
    }
  }

  /**
   * `get_time_data`: every list becomes `[sum, count, first tag]`, every other
   * value passes through, and the accumulator the event names grows by the
   * sum of all the lists. An empty list raises `IndexError`.
   */
  method TimeData(ops: Operations, event: string, acc: Totals) returns (r: Result<map<string, Summary>>, acc': Totals)
    ensures r.Err? <==> HasEmptyList(ops)
    ensures r.Err? ==> r.error == IndexError
    ensures r.Ok? ==> r.value.Keys == ops.Keys && forall k | k in ops :: Summarise(ops[k]) == Ok(r.value[k])
    ensures r.Ok? ==> acc' == acc.Add(event, ListTotal(ops))
  {
    var remaining := ops.Keys;
    var out: map<string, Summary> := map[];
    acc' := acc;
    while remaining != {}
      invariant remaining <= ops.Keys
      invariant out.Keys == ops.Keys - remaining
      invariant forall k | k in out :: Summarise(ops[k]) == Ok(out[k])
      invariant acc' == acc.Add(event, SumValues(ListSums(ops) - remaining))
      decreases remaining
    {
      var k :| k in remaining;
      ListSumsStep(ops, remaining, k);
      match ops[k] {
        case Samples(s) =>
          if |s| == 0 {
            r := Err(IndexError);
            return;
          }
          var total := SampleSum(s);
          acc' := acc'.Add(event, total);
          out := out[k := Aggregate(total, |s|, s[0].tag)];
        case Scalar(v) =>
          out := out[k := PassedThrough(v)];
      }
      remaining := remaining - {k};
    }
    assert ListSums(ops) - {} == ListSums(ops);
    r := Ok(out);
  }

  /** The value under each key of a report row: a category's summaries, or a total. */
  datatype RowValue = Category(ops: map<string, Summary>) | Total(hundredths: int)
  type Row = map<string, RowValue>

  const TotalSleepTime := "total_sleep_time"
  const TotalSetCommandTime := "total_set_command_time"
  const TotalGetCommandTime := "total_get_command_time"
  const TotalTime := "total_time"

  /** None of the test's three categories holds an empty list, so its row can be built. */
  predicate Reportable(events: Events) {
    forall c | c in Commands && c in events :: !HasEmptyList(events[c])
  }

  /** The summaries of a category that holds no empty list. */
  function Summaries(ops: Operations): (r: map<string, Summary>)
    requires !HasEmptyList(ops)
  {
    map k | k in ops :: Summarise(ops[k]).value
  }

  /** A category's summaries; a missing category reads as an empty map. */
  function CategoryRow(events: Events, c: string): map<string, Summary>
    requires c in events ==> !HasEmptyList(events[c])
  {
    if c in events then Summaries(events[c]) else map[]
  }

  /** A category's list total; zero when the category is missing. */
  ghost function CategoryTotal(events: Events, c: string): int {
    if c in events then ListTotal(events[c]) else 0
  }

  /**
   * The row a test gets when the accumulators held `carried` as it started:
   * all three categories and the four totals, each total the carried value
   * plus that test's own list sums.
   */
  ghost function ExpectedRow(events: Events, carried: Totals): Row
    requires Reportable(events)
  {
    var sleep := carried.sleep + CategoryTotal(events, SleepTime);
    var setTotal := carried.setCommand + CategoryTotal(events, SetCommand);
    var getTotal := carried.getCommand + CategoryTotal(events, GetCommand);
    map[SleepTime := Category(CategoryRow(events, SleepTime)),
        SetCommand := Category(CategoryRow(events, SetCommand)),
        GetCommand := Category(CategoryRow(events, GetCommand)),
        TotalSleepTime := Total(sleep),
        TotalSetCommandTime := Total(setTotal),
        TotalGetCommandTime := Total(getTotal),
        TotalTime := Total(sleep + setTotal + getTotal)]
  }

  /** One category of one row: `get_time_data` when present, an empty map when not. */
  method CategoryData(events: Events, c: string, acc: Totals) returns (r: Result<map<string, Summary>>, acc': Totals)
    ensures r.Err? <==> c in events && HasEmptyList(events[c])
    ensures r.Ok? ==> r.value == CategoryRow(events, c) && acc' == acc.Add(c, CategoryTotal(events, c))
  {
    if c in events {
      r, acc' := TimeData(events[c], c, acc);
    } else {
      r, acc' := Ok(map[]), acc;
    }
  }

  /** `Reportable` spelled out over the three categories. */
  lemma ReportableByCategory(events: Events)
    ensures Reportable(events) <==>
      && (SleepTime in events ==> !HasEmptyList(events[SleepTime]))
      && (SetCommand in events ==> !HasEmptyList(events[SetCommand]))
      && (GetCommand in events ==> !HasEmptyList(events[GetCommand]))
  {
    assert Commands == [SetCommand, GetCommand, SleepTime];
  }

  /** Each of the three category names selects its own accumulator. */
  lemma AddByCategory(t: Totals)
    ensures forall x :: t.Add(SleepTime, x) == t.(sleep := t.sleep + x)
    ensures forall x :: t.Add(SetCommand, x) == t.(setCommand := t.setCommand + x)
    ensures forall x :: t.Add(GetCommand, x) == t.(getCommand := t.getCommand + x)
  {
    assert SetCommand[1] != SleepTime[1] && GetCommand[0] != SleepTime[0] && GetCommand[0] != SetCommand[0];
  }

  /** The body of the report loop for one test: three categories, four totals, then the reset. */
  method CollectRow(events: Events, acc: Totals) returns (r: Result<Row>, acc': Totals)
    ensures r.Ok? <==> Reportable(events)
    ensures r.Ok? ==> r.value == ExpectedRow(events, acc) && acc' == Zero
  {
    ReportableByCategory(events);
    AddByCategory(acc);
    var sleep, a1 := CategoryData(events, SleepTime, acc);
    if sleep.Err? { r, acc' := Err(sleep.error), a1; return; }
    var setData, a2 := CategoryData(events, SetCommand, a1);
    if setData.Err? { r, acc' := Err(setData.error), a2; return; }
    var getData, a3 := CategoryData(events, GetCommand, a2);
    if getData.Err? { r, acc' := Err(getData.error), a3; return; }
    r := Ok(map[SleepTime := Category(sleep.value),
                 SetCommand := Category(setData.value),
                 GetCommand := Category(getData.value),
                 TotalSleepTime := Total(a3.sleep),
                 TotalSetCommandTime := Total(a3.setCommand),
                 TotalGetCommandTime := Total(a3.getCommand),
                 TotalTime := Total(a3.sleep + a3.setCommand + a3.getCommand)]);
    acc' := Zero;
  }

  /** `order` lists each test of the ledger once: the dict's iteration order. */
  ghost predicate IsOrderOf(order: seq<TestKey>, l: Ledger) {
    && (forall i, j | 0 <= i < j < |order| :: order[i] != order[j])
    && (forall t :: t in l <==> t in order)
  }

  /**
   * `collect_granular_time_accouting_report`: one row per test, in `order`.
   * Only the first row can see what the accumulators held on entry; every
   * later row starts from zero, so no test's figures reach another's row.
   */
  method CollectReport(l: Ledger, order: seq<TestKey>, acc: Totals) returns (r: Result<map<TestKey, Row>>, acc': Totals)
    requires IsOrderOf(order, l)
    ensures r.Ok? <==> forall t | t in l :: Reportable(l[t])
    ensures r.Ok? ==> r.value.Keys == l.Keys
    ensures r.Ok? ==> forall i | 0 <= i < |order| :: r.value[order[i]] == ExpectedRow(l[order[i]], if i == 0 then acc else Zero)
    ensures r.Ok? ==> acc' == if |order| == 0 then acc else Zero
    ensures r.Ok? && acc == Zero ==> forall t | t in l :: r.value[t] == ExpectedRow(l[t], Zero)
  {
    var report: map<TestKey, Row> := map[];
    acc' := acc;
    var i := 0;
    while i < |order|
      invariant 0 <= i <= |order|
      invariant report.Keys == set j | 0 <= j < i :: order[j]
      invariant forall j | 0 <= j < i :: Reportable(l[order[j]])
      invariant forall j | 0 <= j < i :: report[order[j]] == ExpectedRow(l[order[j]], if j == 0 then acc else Zero)
      invariant acc' == if i == 0 then acc else Zero
    {
      var t := order[i];
      var row;
      row, acc' := CollectRow(l[t], acc');
      if row.Err? {
        r := Err(row.error);
        return;
      }
      report := report[t := row.value];
      i := i + 1;
    }
    r := Ok(report);
    if acc == Zero {
      forall t | t in l ensures r.value[t] == ExpectedRow(l[t], Zero) {
        var j :| 0 <= j < |order| && order[j] == t;
      }
    }
  }

  /** The method records of the JSON output: one per operation key. */
  datatype MethodRecord = MethodRecord(source: string, totalTime: int, occurrence: nat, kind: Option<Tag>)

  /** A transformed row: the `categories` map and the `totals` map. */
  datatype Transformed = Transformed(categories: map<string, map<string, MethodRecord>>, totals: map<string, int>)

  predicate IsTotalKey(k: string) {
    StartsWith(k, "total_")
  }

  /** The value under `k` is of the shape the transform reads there. */
  predicate Convertible(k: string, v: RowValue) {
    if IsTotalKey(k) then v.Total? else v.Category? && forall m | m in v.ops :: v.ops[m].Aggregate?
  }

  /** The records of one category. */
  function Records(ops: map<string, Summary>): (r: map<string, MethodRecord>)
    requires forall m | m in ops :: ops[m].Aggregate?
  {
    map m | m in ops :: MethodRecord(m, ops[m].total, ops[m].count, ops[m].tag)
  }

  /**
   * One test of `get_tranformed_gta_data`: `total_` keys go to `totals`, every
   * other key to `categories` as one record per operation. A None row gives
   * two empty maps; a value of the wrong shape raises.
   */
  function TransformRow(row: Option<Row>): (r: Result<Transformed>)
    ensures row.None? ==> r == Ok(Transformed(map[], map[]))
    ensures row.Some? ==> (r.Ok? <==> forall k | k in row.value :: Convertible(k, row.value[k]))
    ensures row.Some? && r.Ok? ==>
      && r.value.totals.Keys == (set k | k in row.value && IsTotalKey(k))
      && r.value.categories.Keys == (set k | k in row.value && !IsTotalKey(k))
      && (forall k | k in r.value.totals :: r.value.totals[k] == row.value[k].hundredths)
      && (forall k | k in r.value.categories :: r.value.categories[k].Keys == row.value[k].ops.Keys)
      && (forall k, m | k in r.value.categories && m in r.value.categories[k] ::
            var s := row.value[k].ops[m];
            r.value.categories[k][m] == MethodRecord(m, s.total, s.count, s.tag))
  {
    match row
    case None => Ok(Transformed(map[], map[]))
    case Some(rw) =>
      if forall k | k in rw :: Convertible(k, rw[k]) then
        Ok(Transformed(
          map k | k in rw && !IsTotalKey(k) :: Records(rw[k].ops),
          map k | k in rw && IsTotalKey(k) :: rw[k].hundredths))
      else Err(TypeError)
  }

  /** `get_tranformed_gta_data`: every test gets both maps, or the whole transform raises. */
  function Transform(report: map<TestKey, Option<Row>>): (r: Result<map<TestKey, Transformed>>)
    ensures r.Ok? <==> forall t | t in report :: TransformRow(report[t]).Ok?
    ensures r.Ok? ==> r.value.Keys == report.Keys && forall t | t in report :: TransformRow(report[t]) == Ok(r.value[t])
  {
    if forall t | t in report :: TransformRow(report[t]).Ok? then
      Ok(map t | t in report :: TransformRow(report[t]).value)
    else Err(TypeError)
  }

  /** No category of the test holds a number copied from the logger's channel. */
  predicate NoScalars(events: Events) {
    forall c, k | c in Commands && c in events && k in events[c] :: events[c][k].Samples?
  }

  /** The keys of a report row, and which of them are totals. */
  lemma ExpectedRowShape(events: Events, carried: Totals)
    requires Reportable(events)
    ensures var row := ExpectedRow(events, carried);
      && row.Keys == {SleepTime, SetCommand, GetCommand, TotalSleepTime, TotalSetCommandTime, TotalGetCommandTime, TotalTime}
      && (forall k | k in row :: IsTotalKey(k) <==> row[k].Total?)
      && (forall k | k in row && !IsTotalKey(k) :: k in Commands && row[k] == Category(CategoryRow(events, k)))
  {
    CategoriesAreNotTotals();
    TotalsAreTotals();
  }

  lemma TotalsAreTotals()
    ensures IsTotalKey(TotalSleepTime) && IsTotalKey(TotalSetCommandTime)
    ensures IsTotalKey(TotalGetCommandTime) && IsTotalKey(TotalTime)
  {
    assert TotalSleepTime[..6] == "total_";
    assert TotalSetCommandTime[..6] == "total_";
    assert TotalGetCommandTime[..6] == "total_";
    assert TotalTime[..6] == "total_";
  }

  lemma CategoriesAreNotTotals()
    ensures !IsTotalKey(SleepTime) && !IsTotalKey(SetCommand) && !IsTotalKey(GetCommand)
  {
    FirstCharMismatch(SleepTime, "total_");
    FirstCharMismatch(SetCommand, "total_");
    FirstCharMismatch(GetCommand, "total_");
  }

  /** A category row holds a passed-through value exactly where the ledger holds a number. */
  lemma CategoryRowAggregates(events: Events, c: string)
    requires c in Commands && Reportable(events)
    ensures (forall m | m in CategoryRow(events, c) :: CategoryRow(events, c)[m].Aggregate?)
        <==> (c in events ==> forall k | k in events[c] :: events[c][k].Samples?)
  {
    if c in events {
      var row := CategoryRow(events, c);
      forall k | k in events[c] ensures row[k].Aggregate? <==> events[c][k].Samples? {
        assert events[c][k] != Samples([]);
      }
    }
  }

  /** A report row transforms exactly when no channel number sits in one of its categories. */
  lemma TransformExpectedRowSucceeds(events: Events, carried: Totals)
    requires Reportable(events)
    ensures TransformRow(Some(ExpectedRow(events, carried))).Ok? <==> NoScalars(events)
  {
    var row := ExpectedRow(events, carried);
    ExpectedRowShape(events, carried);
    CategoryRowAggregates(events, SleepTime);
    CategoryRowAggregates(events, SetCommand);
    CategoryRowAggregates(events, GetCommand);
    assert (forall k | k in row :: Convertible(k, row[k])) <==> NoScalars(events);
  }

  /** A transformed report row has exactly the three categories and the four totals. */
  lemma TransformExpectedRow(events: Events, carried: Totals)
    requires Reportable(events) && NoScalars(events)
    ensures var t := TransformRow(Some(ExpectedRow(events, carried)));
      && t.Ok?
      && t.value.categories.Keys == {SleepTime, SetCommand, GetCommand}
      && t.value.totals.Keys == {TotalSleepTime, TotalSetCommandTime, TotalGetCommandTime, TotalTime}
  {
    var row := ExpectedRow(events, carried);
    TransformExpectedRowSucceeds(events, carried);
    ExpectedRowShape(events, carried);
    CategoriesAreNotTotals();
    TotalsAreTotals();
  }

  /** The two lists `[1.23, 2.34]` and `[3.45, 4.56]` µs sum to 3.57 and 8.01: 11.58 µs for the category. */
  lemma TimeDataExample(tag: Option<Tag>)
    ensures var ops := map["method1" := Samples([Sample(123, tag), Sample(234, tag)]),
                           "method2" := Samples([Sample(345, tag), Sample(456, tag)])];
      && Summarise(ops["method1"]) == Ok(Aggregate(357, 2, tag))
      && Summarise(ops["method2"]) == Ok(Aggregate(801, 2, tag))
      && ListTotal(ops) == 1158
  {
    var m1 := Samples([Sample(123, tag), Sample(234, tag)]);
    var m2 := Samples([Sample(345, tag), Sample(456, tag)]);
    var ops := map["method1" := m1, "method2" := m2];
    assert m1.samples[1..] == [Sample(234, tag)] && m2.samples[1..] == [Sample(456, tag)];
    assert m1.samples[1..][1..] == [] && m2.samples[1..][1..] == [];
    assert SampleSum([Sample(234, tag)]) == 234 && SampleSum([Sample(456, tag)]) == 456;
    assert SampleSum(m1.samples) == 123 + SampleSum(m1.samples[1..]) == 357;
    assert SampleSum(m2.samples) == 345 + SampleSum(m2.samples[1..]) == 801;
    assert ListSums(ops).Keys == {"method1", "method2"};
    assert ListSums(ops) == map["method1" := 357, "method2" := 801];
    SumValuesInsert(map["method1" := 357], "method2", 801);
    SumValuesInsert(map[], "method1", 357);
    assert map[]["method1" := 357] == map["method1" := 357];
    assert map["method1" := 357]["method2" := 801] == map["method1" := 357, "method2" := 801];
  }
}

=== FILE: pdb_capture.dfy ===
/**
 * The debugger's output capture and action transcript: `OutputCapture`
 * replaces `sys.stdout`/`sys.stderr` by tees into its own buffers, and
 * `postcmd` logs each command with whatever the previous capture saw.
 *
 * A stream is modelled as the real stream plus the chain of capture ids
 * whose `StreamWrapper`s enclose it, innermost first.
 */
module PdbCapture {
  import opened Wrappers

  datatype Stream = StdOut | StdErr

  type Chain = seq<nat>

  /** One `OutputCapture`: its two buffers and the streams installed when it was built. */
  datatype Capture = Capture(out: string, err: string, savedOut: Chain, savedErr: Chain)
  {
    function Buffer(s: Stream): string {
      if s == StdOut then out else err
    }

    function Saved(s: Stream): Chain {
      if s == StdOut then savedOut else savedErr
    }

    /** `capture_buffer.write(text)` on the buffer of `s`. */
    function Append(s: Stream, text: string): (r: Capture)
      ensures r.Buffer(s) == Buffer(s) + text
      ensures s == StdOut ==> r.err == err
      ensures s == StdErr ==> r.out == out
      ensures r.savedOut == savedOut && r.savedErr == savedErr
    {
      if s == StdOut then this.(out := out + text) else this.(err := err + text)
    }
  }

  /** The two real streams, the chains installed as `sys.stdout`/`sys.stderr`, and every capture built so far. */
  datatype Console = Console(realOut: string, realErr: string, outChain: Chain, errChain: Chain, captures: seq<Capture>)
  {
    function Real(s: Stream): string {
      if s == StdOut then realOut else realErr
    }

    function ChainOf(s: Stream): Chain {
      if s == StdOut then outChain else errChain
    }
  }

  /** Every installed wrapper feeds a capture that exists. */
  ghost predicate Valid(c: Console) {
    && (forall k | k in c.outChain :: k < |c.captures|)
    && (forall k | k in c.errChain :: k < |c.captures|)
  }

  /** The buffer writes of the wrappers in `chain`, each appending `text` to its capture's buffer of `s`. */
  function Feed(caps: seq<Capture>, chain: Chain, s: Stream, text: string): (r: seq<Capture>)
    ensures |r| == |caps|
    decreases |chain|
  {
    if |chain| == 0 then caps
    else
      var id := chain[|chain| - 1];
      var rest := Feed(caps, chain[..|chain| - 1], s, text);
      if id < |rest| then rest[id := rest[id].Append(s, text)] else rest
  }

  /** The wrappers' writes touch only their own captures' buffers of `s`. */
  lemma {:induction false} FeedFrame(caps: seq<Capture>, chain: Chain, s: Stream, text: string)
    ensures var r := Feed(caps, chain, s, text);
      && (forall i | 0 <= i < |caps| ::
        && r[i].savedOut == caps[i].savedOut && r[i].savedErr == caps[i].savedErr
        && (s == StdOut ==> r[i].err == caps[i].err)
        && (s == StdErr ==> r[i].out == caps[i].out))
      && (forall i | 0 <= i < |caps| && i !in chain :: r[i] == caps[i])
    decreases |chain|
  {
    if |chain| > 0 {
      var init := chain[..|chain| - 1];
      FeedFrame(caps, init, s, text);
      assert forall i | i !in chain :: i !in init && i != chain[|chain| - 1];
    }
  }

  /** A wrapper placed outside every other one receives each write exactly once. */
  lemma FeedOutermost(caps: seq<Capture>, chain: Chain, i: nat, s: Stream, text: string)
    requires i < |caps| && i !in chain
    ensures Feed(caps, chain + [i], s, text)[i] == caps[i].Append(s, text)
  {
    assert (chain + [i])[..|chain|] == chain;
    FeedFrame(caps, chain, s, text);
  }

  /** `sys.stdout.write(text)` (or stderr): the real stream and every wrapper's buffer receive `text`. */
  function Write(c: Console, s: Stream, text: string): (r: Console)
    ensures r.Real(s) == c.Real(s) + text
    ensures s == StdOut ==> r.realErr == c.realErr
    ensures s == StdErr ==> r.realOut == c.realOut
    ensures r.outChain == c.outChain && r.errChain == c.errChain
    ensures |r.captures| == |c.captures|
  {
    var caps := Feed(c.captures, c.ChainOf(s), s, text);
    if s == StdOut then c.(realOut := c.realOut + text, captures := caps)
    else c.(realErr := c.realErr + text, captures := caps)
  }

  /** A write leaves alone every capture whose wrapper is not installed on `s`, and what each capture remembers. */
  lemma WriteFrame(c: Console, s: Stream, text: string)
    ensures var r := Write(c, s, text);
      && (forall i | 0 <= i < |c.captures| ::
        r.captures[i].savedOut == c.captures[i].savedOut && r.captures[i].savedErr == c.captures[i].savedErr)
      && (forall i | 0 <= i < |c.captures| && i !in c.ChainOf(s) :: r.captures[i] == c.captures[i])
  {
    FeedFrame(c.captures, c.ChainOf(s), s, text);
  }

  /** `OutputCapture()`: empty buffers, remembering the streams installed right now. */
  function NewCapture(c: Console): (r: (Console, nat))
    ensures r.1 == |c.captures| && |r.0.captures| == r.1 + 1
    ensures r.0.captures[..r.1] == c.captures
    ensures r.0.captures[r.1].out == "" && r.0.captures[r.1].err == ""
    ensures r.0.captures[r.1].savedOut == c.outChain && r.0.captures[r.1].savedErr == c.errChain
    ensures r.0.realOut == c.realOut && r.0.realErr == c.realErr
    ensures r.0.outChain == c.outChain && r.0.errChain == c.errChain
  {
    (c.(captures := c.captures + [Capture("", "", c.outChain, c.errChain)]), |c.captures|)
  }

  /** `start_capture`: wraps whatever streams are installed now. */
  function Start(c: Console, id: nat): (r: Console)
    requires id < |c.captures|
    ensures r.outChain == c.outChain + [id] && r.errChain == c.errChain + [id]
    ensures r.captures == c.captures && r.realOut == c.realOut && r.realErr == c.realErr
  {
    c.(outChain := c.outChain + [id], errChain := c.errChain + [id])
  }

  /** `stop_capture`: reinstalls the streams remembered at construction, whatever is installed now. */
  function Stop(c: Console, id: nat): (r: Console)
    requires id < |c.captures|
    ensures r.outChain == c.captures[id].savedOut && r.errChain == c.captures[id].savedErr
    ensures r.captures == c.captures && r.realOut == c.realOut && r.realErr == c.realErr
  {
    c.(outChain := c.captures[id].savedOut, errChain := c.captures[id].savedErr)
  }

  /** `get_captured_output`: the stdout buffer followed by the stderr buffer. */
  function CapturedOutput(c: Console, id: nat): (r: string)
    requires id < |c.captures|
    ensures |r| == |c.captures[id].out| + |c.captures[id].err|
    ensures r[..|c.captures[id].out|] == c.captures[id].out
  {
    c.captures[id].out + c.captures[id].err
  }

  /**
   * A capture built and started on a valid console sees exactly what is
   * written afterwards, the real streams still receive it, and stopping the
   * capture reinstalls the original streams.
   */
  lemma {:induction false} TeeRoundTrip(c: Console, outText: string, errText: string)
    requires Valid(c)
    ensures
      var (c1, id) := NewCapture(c);
      var c3 := Write(Write(Start(c1, id), StdOut, outText), StdErr, errText);
      && CapturedOutput(c3, id) == outText + errText
      && c3.realOut == c.realOut + outText && c3.realErr == c.realErr + errText
      && Stop(c3, id).outChain == c.outChain && Stop(c3, id).errChain == c.errChain
  {
    var (c1, id) := NewCapture(c);
    var c2 := Start(c1, id);
    assert id !in c.outChain && id !in c.errChain;
    FeedOutermost(c1.captures, c.outChain, id, StdOut, outText);
    var c25 := Write(c2, StdOut, outText);
    assert c25.captures[id].out == outText && c25.captures[id].err == "";
    FeedOutermost(c25.captures, c.errChain, id, StdErr, errText);
    var c3 := Write(c25, StdErr, errText);
    assert c3.captures[id].out == outText && c3.captures[id].err == errText;
  }

  // ---------------------------------------------------------------------------
  // The debugger session

  /** One command at the prompt: its line and what it wrote to stdout and stderr. */
  datatype Command = Command(line: string, out: string, err: string)

  /** The debugger's `user_action` transcript, the console and the id of `self.output_capture`. */
  datatype Debugger = Debugger(userAction: string, console: Console, current: nat)

  predicate IsQuit(line: string) {
    line == "q" || line == "quit" || line == "exit"
  }

  /** The transcript entry of one command given what its capture saw. */
  function Entry(line: string, captured: string): (r: string)
    ensures ("> " + line + " command executed\n") <= r
    ensures captured == "" <==> r == "> " + line + " command executed\n"
  {
    "> " + line + " command executed\n"
      + if captured == "" then "" else "Output of " + line + ":\n" + "  " + captured + "\n"
  }

  /**
   * `postcmd`. With `stopFirst` false it is the code as written: the new
   * capture is built while the previous one's wrappers are still installed.
   * With `stopFirst` true the previous capture is stopped first.
   */
  function PostCmdWith(d: Debugger, line: string, stopFirst: bool): (r: Debugger)
    requires d.current < |d.console.captures|
    ensures r.current < |r.console.captures|
    ensures r.userAction == d.userAction + Entry(line, if IsQuit(line) then "" else CapturedOutput(d.console, d.current))
    ensures r.console.realOut == d.console.realOut && r.console.realErr == d.console.realErr
    ensures IsQuit(line) ==> r.console == Stop(d.console, d.current) && r.current == d.current
    ensures !IsQuit(line) ==>
      && r.current == |d.console.captures| == |r.console.captures| - 1
      && r.console.captures[r.current].out == "" && r.console.captures[r.current].err == ""
      && r.console.outChain == (if stopFirst then d.console.captures[d.current].savedOut else d.console.outChain) + [r.current]
      && r.console.errChain == (if stopFirst then d.console.captures[d.current].savedErr else d.console.errChain) + [r.current]
  {
    if IsQuit(line) then
      Debugger(d.userAction + Entry(line, ""), Stop(d.console, d.current), d.current)
    else
      var captured := CapturedOutput(d.console, d.current);
      var base := if stopFirst then Stop(d.console, d.current) else d.console;
      var (c1, id) := NewCapture(base);
      Debugger(d.userAction + Entry(line, captured), Start(c1, id), id)
  }

  function PostCmdAsWritten(d: Debugger, line: string): (r: Debugger)
    requires d.current < |d.console.captures|
    ensures r.current < |r.console.captures|
    ensures d.userAction <= r.userAction
  {
    PostCmdWith(d, line, false)
  }

  function PostCmd(d: Debugger, line: string): (r: Debugger)
    requires d.current < |d.console.captures|
    ensures r.current < |r.console.captures|
    ensures d.userAction <= r.userAction
  {
    PostCmdWith(d, line, true)
  }

  /**
   * The debugger as `postcmd` finds it: `self.output_capture` exists only
   * once `post_mortem` has set it; a session entered any other way has none.
   */
  datatype Session = Session(userAction: string, console: Console, capture: Option<nat>)

  /**
   * `postcmd` on any session. The `command executed` line is logged before
   * `self.output_capture` is read, so a session without a capture keeps that
   * line and raises `AttributeError`; otherwise it is `PostCmdWith`.
   */
  function PostCmdHook(sn: Session, line: string, stopFirst: bool): (r: (Session, Option<Exn>))
    requires sn.capture.Some? ==> sn.capture.value < |sn.console.captures|
    ensures r.1.Some? <==> sn.capture.None?
    ensures sn.capture.None? ==>
      r.1 == Some(AttributeError) && r.0 == sn.(userAction := sn.userAction + "> " + line + " command executed\n")
    ensures sn.capture.Some? ==>
      var d := PostCmdWith(Debugger(sn.userAction, sn.console, sn.capture.value), line, stopFirst);
      r.0 == Session(d.userAction, d.console, Some(d.current))
    ensures sn.userAction + "> " + line + " command executed\n" <= r.0.userAction
  {
    match sn.capture
    case None => (sn.(userAction := sn.userAction + "> " + line + " command executed\n"), Some(AttributeError))
    case Some(id) =>
      var d := PostCmdWith(Debugger(sn.userAction, sn.console, id), line, stopFirst);
      (Session(d.userAction, d.console, Some(d.current)), None)
  }

  /** A command runs, writing its output through the installed streams, then `postcmd` follows. */
  function Step(d: Debugger, cmd: Command, stopFirst: bool): (r: Debugger)
    requires d.current < |d.console.captures|
    ensures r.current < |r.console.captures|
    ensures r.console.realOut == d.console.realOut + cmd.out && r.console.realErr == d.console.realErr + cmd.err
    ensures |d.console.captures| <= |r.console.captures|
  {
    var c := Write(Write(d.console, StdOut, cmd.out), StdErr, cmd.err);
    PostCmdWith(d.(console := c), cmd.line, stopFirst)
  }

  /**
   * The prompt loop of `interaction`. `cmds` are the commands the loop
   * actually runs: it ends where they end (after `c`, `n`, `s` or `r`, say),
   * or early at a quit, after which nothing more is read.
   */
  function Interact(d: Debugger, cmds: seq<Command>, stopFirst: bool): (r: Debugger)
    requires d.current < |d.console.captures|
    ensures r.current < |r.console.captures|
    ensures |d.console.captures| <= |r.console.captures|
    decreases |cmds|
  {
    if |cmds| == 0 then d
    else
      var d1 := Step(d, cmds[0], stopFirst);
      if IsQuit(cmds[0].line) then d1 else Interact(d1, cmds[1..], stopFirst)
  }

  /** The capture part of `post_mortem`: capture, interact, stop the capture in place at the end. */
  function PostMortemWith(d: Debugger, cmds: seq<Command>, stopFirst: bool): (r: Debugger)
    ensures |d.console.captures| < |r.console.captures| && r.current < |r.console.captures|
    ensures r.console.outChain == r.console.captures[r.current].savedOut
    ensures r.console.errChain == r.console.captures[r.current].savedErr
  {
    var (c1, id) := NewCapture(d.console);
    var d2 := Interact(Debugger(d.userAction, Start(c1, id), id), cmds, stopFirst);
    d2.(console := Stop(d2.console, d2.current))
  }

  // ---------------------------------------------------------------------------
  // The transcript

  /** The entries the commands up to and including the first quit should log. */
  function Transcript(cmds: seq<Command>): string
    decreases |cmds|
  {
    if |cmds| == 0 then ""
    else
      var c := cmds[0];
      Entry(c.line, if IsQuit(c.line) then "" else c.out + c.err)
        + if IsQuit(c.line) then "" else Transcript(cmds[1..])
  }

  /** The current capture is empty and installed outermost over the streams it remembers. */
  ghost predicate Fresh(d: Debugger) {
    var c := d.console;
    && Valid(c)
    && d.current < |c.captures|
    && c.captures[d.current].out == "" && c.captures[d.current].err == ""
    && c.outChain == c.captures[d.current].savedOut + [d.current]
    && c.errChain == c.captures[d.current].savedErr + [d.current]
    && d.current !in c.captures[d.current].savedOut && d.current !in c.captures[d.current].savedErr
  }

  /** The command's own writes, through the installed streams. */
  function RunCommand(c: Console, cmd: Command): (r: Console)
    ensures r.outChain == c.outChain && r.errChain == c.errChain && |r.captures| == |c.captures|
  {
    Write(Write(c, StdOut, cmd.out), StdErr, cmd.err)
  }

  /** A command's writes do not change what any capture remembers. */
  lemma RunCommandKeepsSaved(c: Console, cmd: Command)
    ensures forall i | 0 <= i < |c.captures| ::
      && RunCommand(c, cmd).captures[i].savedOut == c.captures[i].savedOut
      && RunCommand(c, cmd).captures[i].savedErr == c.captures[i].savedErr
  {
    WriteFrame(c, StdOut, cmd.out);
    WriteFrame(Write(c, StdOut, cmd.out), StdErr, cmd.err);
  }

  /** Under a fresh capture, the capture sees exactly what the command wrote and nothing else moves. */
  lemma {:induction false} FreshCaptureSeesCommand(d: Debugger, cmd: Command)
    requires Fresh(d)
    ensures var c := RunCommand(d.console, cmd);
      && CapturedOutput(c, d.current) == cmd.out + cmd.err
      && Valid(c)
      && c.captures[d.current].savedOut == d.console.captures[d.current].savedOut
      && c.captures[d.current].savedErr == d.console.captures[d.current].savedErr
  {
    var c0, id := d.console, d.current;
    var savedOut, savedErr := c0.captures[id].savedOut, c0.captures[id].savedErr;
    FeedOutermost(c0.captures, savedOut, id, StdOut, cmd.out);
    var c1 := Write(c0, StdOut, cmd.out);
    assert c1.captures[id].out == cmd.out && c1.captures[id].err == "";
    FeedOutermost(c1.captures, savedErr, id, StdErr, cmd.err);
    var c2 := Write(c1, StdErr, cmd.err);
    assert c2.captures[id].out == cmd.out && c2.captures[id].err == cmd.err;
  }

  /** A command run under a fresh capture is logged with exactly what it wrote, in either variant. */
  lemma {:induction false} StepLogsOutput(d: Debugger, cmd: Command, stopFirst: bool)
    requires Fresh(d)
    ensures Step(d, cmd, stopFirst).userAction
      == d.userAction + Entry(cmd.line, if IsQuit(cmd.line) then "" else cmd.out + cmd.err)
  {
    FreshCaptureSeesCommand(d, cmd);
    assert Write(Write(d.console, StdOut, cmd.out), StdErr, cmd.err) == RunCommand(d.console, cmd);
  }

  /** A capture built and started on a valid console is fresh. */
  lemma {:induction false} StartedCaptureIsFresh(userAction: string, c: Console)
    requires Valid(c)
    ensures var (c1, id) := NewCapture(c); Fresh(Debugger(userAction, Start(c1, id), id))
  {
    var (c1, id) := NewCapture(c);
    assert id !in c.outChain && id !in c.errChain;
  }

  /** A command that does not quit leaves a fresh capture behind, in either variant. */
  lemma {:induction false} StepKeepsFresh(d: Debugger, cmd: Command, stopFirst: bool)
    requires Fresh(d) && !IsQuit(cmd.line)
    ensures Fresh(Step(d, cmd, stopFirst))
  {
    FreshCaptureSeesCommand(d, cmd);
    var c := RunCommand(d.console, cmd);
    var base := if stopFirst then Stop(c, d.current) else c;
    assert Valid(base) by {
      var savedOut, savedErr := c.captures[d.current].savedOut, c.captures[d.current].savedErr;
      assert forall k | k in savedOut :: k in c.outChain;
      assert forall k | k in savedErr :: k in c.errChain;
    }
    StartedCaptureIsFresh(d.userAction + Entry(cmd.line, CapturedOutput(c, d.current)), base);
  }

  lemma EmptySessionLogsNothing(d: Debugger, cmds: seq<Command>, stopFirst: bool)
    requires d.current < |d.console.captures| && |cmds| == 0
    ensures Interact(d, cmds, stopFirst).userAction == d.userAction + Transcript(cmds)
  {
    assert d.userAction + "" == d.userAction;
  }

  /** A quitting command ends the session: it is the last one logged. */
  lemma {:induction false} QuitEndsTranscript(d: Debugger, cmds: seq<Command>, stopFirst: bool)
    requires Fresh(d) && |cmds| > 0 && IsQuit(cmds[0].line)
    ensures Interact(d, cmds, stopFirst).userAction == d.userAction + Transcript(cmds)
  {
    var e := Entry(cmds[0].line, "");
    assert Transcript(cmds) == e + "";
    assert Interact(d, cmds, stopFirst) == Step(d, cmds[0], stopFirst);
    StepLogsOutput(d, cmds[0], stopFirst);
  }

  /** Any other command is logged and leaves a fresh capture for the rest of the session. */
  lemma {:induction false} CommandContinuesTranscript(d: Debugger, cmds: seq<Command>, stopFirst: bool)
    requires Fresh(d) && |cmds| > 0 && !IsQuit(cmds[0].line)
    ensures var d1 := Step(d, cmds[0], stopFirst);
      && Fresh(d1)
      && d1.userAction == d.userAction + Entry(cmds[0].line, cmds[0].out + cmds[0].err)
      && Interact(d, cmds, stopFirst) == Interact(d1, cmds[1..], stopFirst)
      && Transcript(cmds) == Entry(cmds[0].line, cmds[0].out + cmds[0].err) + Transcript(cmds[1..])
  {
    StepLogsOutput(d, cmds[0], stopFirst);
    StepKeepsFresh(d, cmds[0], stopFirst);
  }

  /** Every command up to the first quit is logged, in order, with exactly what it wrote. */
  lemma {:induction false} InteractLogsTranscript(d: Debugger, cmds: seq<Command>, stopFirst: bool)
    requires Fresh(d)
    ensures Interact(d, cmds, stopFirst).userAction == d.userAction + Transcript(cmds)
    decreases |cmds|
  {
    var goal := Interact(d, cmds, stopFirst).userAction == d.userAction + Transcript(cmds);
    if |cmds| == 0 {
      EmptySessionLogsNothing(d, cmds, stopFirst);
    } else if IsQuit(cmds[0].line) {
      QuitEndsTranscript(d, cmds, stopFirst);
    } else {
      assert goal by {
        CommandContinuesTranscript(d, cmds, stopFirst);
        var d1 := Step(d, cmds[0], stopFirst);
        InteractLogsTranscript(d1, cmds[1..], stopFirst);
        var u, e, t := d.userAction, Entry(cmds[0].line, cmds[0].out + cmds[0].err), Transcript(cmds[1..]);
        assert (u + e) + t == u + (e + t);
      }
    }
  }

  /** A `post_mortem` session logs its transcript in both variants. */
  lemma PostMortemLogsTranscript(d: Debugger, cmds: seq<Command>, stopFirst: bool)
    requires Valid(d.console)
    ensures PostMortemWith(d, cmds, stopFirst).userAction == d.userAction + Transcript(cmds)
  {
    var (c1, id) := NewCapture(d.console);
    var d1 := Debugger(d.userAction, Start(c1, id), id);
    StartedCaptureIsFresh(d.userAction, d.console);
    InteractLogsTranscript(d1, cmds, stopFirst);
  }

  // ---------------------------------------------------------------------------
  // Restoring the streams

  /** The current capture remembers `base`, and either it is installed over `base` or `base` is back. */
  ghost predicate Anchored(d: Debugger, baseOut: Chain, baseErr: Chain) {
    var c := d.console;
    && d.current < |c.captures|
    && c.captures[d.current].savedOut == baseOut && c.captures[d.current].savedErr == baseErr
    && ((c.outChain == baseOut + [d.current] && c.errChain == baseErr + [d.current])
        || (c.outChain == baseOut && c.errChain == baseErr))
  }

  lemma {:induction false} InteractStaysAnchored(d: Debugger, cmds: seq<Command>, baseOut: Chain, baseErr: Chain)
    requires Anchored(d, baseOut, baseErr)
    ensures Anchored(Interact(d, cmds, true), baseOut, baseErr)
    decreases |cmds|
  {
    if |cmds| > 0 {
      RunCommandKeepsSaved(d.console, cmds[0]);
      var d1 := Step(d, cmds[0], true);
      assert Step(d, cmds[0], true) == PostCmdWith(d.(console := RunCommand(d.console, cmds[0])), cmds[0].line, true);
      assert Anchored(d1, baseOut, baseErr);
      if !IsQuit(cmds[0].line) {
        InteractStaysAnchored(d1, cmds[1..], baseOut, baseErr);
      }
    }
  }

  /** With the previous capture stopped first, `post_mortem` leaves the streams it found installed. */
  lemma PostMortemRestoresStreams(d: Debugger, cmds: seq<Command>)
    ensures PostMortemWith(d, cmds, true).console.outChain == d.console.outChain
    ensures PostMortemWith(d, cmds, true).console.errChain == d.console.errChain
  {
    var (c1, id) := NewCapture(d.console);
    var d1 := Debugger(d.userAction, Start(c1, id), id);
    InteractStaysAnchored(d1, cmds, d.console.outChain, d.console.errChain);
  }

  /**
   * As written, one command before `q` leaves the first capture's wrapper
   * installed after `post_mortem` returns: later output is still copied
   * into its buffer.
   */
  lemma PostMortemLeavesWrapper()
    ensures
      var d := Debugger("", Console("", "", [], [], []), 0);
      var r := PostMortemWith(d, [Command("p 1", "", ""), Command("q", "", "")], false);
      r.console.outChain == [0] != d.console.outChain
  {
    var d := Debugger("", Console("", "", [], [], []), 0);
    var cmds := [Command("p 1", "", ""), Command("q", "", "")];
    var (c1, id) := NewCapture(d.console);
    var d1 := Debugger(d.userAction, Start(c1, id), id);
    assert d1.console.outChain == [0];
    var d2 := Step(d1, cmds[0], false);
    assert d2.current == 1 && d2.console.captures[1].savedOut == [0];
    assert d2.console.outChain == [0, 1];
    assert cmds[1..] == [Command("q", "", "")];
    var d3 := Interact(d2, cmds[1..], false);
    assert d3 == Step(d2, cmds[1], false);
    RunCommandKeepsSaved(d2.console, cmds[1]);
    assert d3 == PostCmdWith(d2.(console := RunCommand(d2.console, cmds[1])), "q", false);
    assert d3.console.outChain == [0] && d3.current == 1;
  }
}

=== FILE: pdb_env.dfy ===
/**
 * The environment listing of `do_show_locals`: each variable goes to the
 * first bucket whose name pattern occurs in its key, ignoring case.
 */
module PdbEnv {
  import opened Strings

  datatype Bucket = Repo | Path | Ssh | Home | Root | VirtualEnv | Other

  /** The bucket patterns in the order the `elif` chain tries them; `Other` takes the rest. */
  const Patterns: seq<(Bucket, string)> :=
    [(Repo, "REPO"), (Path, "PATH"), (Ssh, "SSH"), (Home, "HOME"), (Root, "ROOT"), (VirtualEnv, "VIRTUAL")]

  const AllBuckets := {Repo, Path, Ssh, Home, Root, VirtualEnv, Other}

  /** ASCII upper case. */
  function Upper(c: char): char {
    if 'a' <= c <= 'z' then (c as int - 32) as char else c
  }

  function UpperStr(s: string): (r: string)
    ensures |r| == |s| && forall i | 0 <= i < |s| :: r[i] == Upper(s[i])
  {
    seq(|s|, i requires 0 <= i < |s| => Upper(s[i]))
  }

  /** `pattern` matches `key` at `i` when compared character by character without case. */
  ghost predicate MatchesAt(key: string, pattern: string, i: int) {
    0 <= i && i + |pattern| <= |key| && forall j | 0 <= j < |pattern| :: Upper(key[i + j]) == Upper(pattern[j])
  }

  /** `re.search(re.compile(pattern, re.IGNORECASE), key)` for a literal pattern. */
  function Matches(key: string, pattern: string): (b: bool)
    ensures b <==> exists i :: MatchesAt(key, pattern, i)
  {
    var b := Contains(UpperStr(key), UpperStr(pattern));
    MatchesIffOccurs(key, pattern);
    b
  }

  lemma MatchesIffOccurs(key: string, pattern: string)
    ensures Occurs(UpperStr(key), UpperStr(pattern)) <==> exists i :: MatchesAt(key, pattern, i)
  {
    var uk, up := UpperStr(key), UpperStr(pattern);
    if Occurs(uk, up) {
      var i :| OccursAt(uk, up, i);
      forall j | 0 <= j < |pattern| ensures Upper(key[i + j]) == Upper(pattern[j]) {
        assert uk[i..i + |up|][j] == up[j];
      }
      assert MatchesAt(key, pattern, i);
    }
    if exists i :: MatchesAt(key, pattern, i) {
      var i :| MatchesAt(key, pattern, i);
      assert uk[i..i + |up|] == up;
      assert OccursAt(uk, up, i);
    }
  }

  /** The position of the first pattern that matches `key`, or `|pats|` when none does. */
  function FirstMatch(key: string, pats: seq<(Bucket, string)>): (j: nat)
    ensures j <= |pats|
    ensures j < |pats| ==> Matches(key, pats[j].1)
    ensures forall i | 0 <= i < j :: !Matches(key, pats[i].1)
  {
    if |pats| == 0 then 0
    else if Matches(key, pats[0].1) then 0
    else 1 + FirstMatch(key, pats[1..])
  }

  /** The `if`/`elif` chain over one key: the first pattern of `Patterns` that matches wins. */
  function Classify(key: string): (b: Bucket)
    ensures b in AllBuckets
    ensures b == Other <==> forall j | 0 <= j < |Patterns| :: !Matches(key, Patterns[j].1)
    ensures b != Other ==> exists j | 0 <= j < |Patterns| ::
      && Patterns[j].0 == b && Matches(key, Patterns[j].1)
      && forall i | 0 <= i < j :: !Matches(key, Patterns[i].1)
  {
    var j := FirstMatch(key, Patterns);
    if j < |Patterns| then Patterns[j].0 else Other
  }

  /** The seven dictionaries of `env_vars`, filled from `os.environ`. */
  function Categorise(env: map<string, string>): (r: map<Bucket, map<string, string>>)
    ensures r.Keys == AllBuckets
    ensures forall b, k | b in r && k in r[b] :: k in env && r[b][k] == env[k] && Classify(k) == b
    ensures forall k | k in env :: k in r[Classify(k)]
  {
    map b | b in AllBuckets :: map k | k in env && Classify(k) == b :: env[k]
  }

  /** Every variable is listed exactly once, under its first matching bucket, with its value unchanged. */
  lemma CategoriseIsPartition(env: map<string, string>, k: string)
    requires k in env
    ensures var r := Categorise(env);
      && k in r[Classify(k)] && r[Classify(k)][k] == env[k]
      && forall b | b in r && b != Classify(k) :: k !in r[b]
  {
  }

  /** A pattern whose first letter appears nowhere in `key` does not match it. */
  lemma NoMatchWithoutFirstLetter(key: string, pattern: string)
    requires |pattern| > 0
    requires forall k | 0 <= k < |key| :: Upper(key[k]) != Upper(pattern[0])
    ensures !Matches(key, pattern)
  {
    forall i | 0 <= i && i + |pattern| <= |key| ensures !MatchesAt(key, pattern, i) {
      assert Upper(key[i]) != Upper(pattern[0]);
    }
  }

  /** `PATH` is tried before `HOME`: `HOMEPATH` is listed under Path. */
  lemma PathBeforeHome()
    ensures Classify("HOMEPATH") == Path
  {
    var key := "HOMEPATH";
    assert key == ['H', 'O', 'M', 'E', 'P', 'A', 'T', 'H'];
    assert forall k | 0 <= k < |key| :: Upper(key[k]) in {'H', 'O', 'M', 'E', 'P', 'A', 'T'};
    NoMatchWithoutFirstLetter(key, "REPO");
    assert MatchesAt("HOMEPATH", "PATH", 4);
  }

  /** Matching ignores case: a lower-case `ssh` variable is listed under Ssh. */
  lemma LowerCaseMatches()
    ensures Classify("ssh_sock") == Ssh
  {
    var key := "ssh_sock";
    assert key == ['s', 's', 'h', '_', 's', 'o', 'c', 'k'];
    assert forall k | 0 <= k < |key| :: Upper(key[k]) in {'S', 'H', '_', 'O', 'C', 'K'};
    NoMatchWithoutFirstLetter(key, "REPO");
    NoMatchWithoutFirstLetter(key, "PATH");
    assert MatchesAt("ssh_sock", "SSH", 0);
  }
}

=== FILE: run_info.dfy ===
/**
 * `Cafy.RunInfo`: the exception record kept by non-blocking steps and
 * checked by scopes, and the message conversion of `TestcaseStatus`.
 */
module RunInfo {
  import opened Wrappers
  import opened Strings

  /** What `__exit__` receives when the step body raised: `exc_type`, `exc_val`, `exc_tb`. */
  datatype ExcInfo = ExcInfo(excType: string, value: Exn, traceback: string)

  /** The `RunInfo` class attributes. */
  datatype State = State(
    currentTestcase: Option<string>,
    currentFailures: map<Option<string>, seq<Exn>>,
    activeExceptions: seq<Exn>,
    blockException: seq<ExcInfo>)

  /**
   * `StepContext.__exit__`: a non-blocking step that saw an exception records
   * its value and its full `(type, value, traceback)` triple; the result is
   * `not blocking`, which tells Python whether to swallow the exception.
   */
  function StepExit(s: State, blocking: bool, exc: Option<ExcInfo>): (r: (bool, State))
    ensures r.0 == !blocking
    ensures !blocking && exc.Some? ==>
      r.1 == s.(activeExceptions := s.activeExceptions + [exc.value.value],
                blockException := s.blockException + [exc.value])
    ensures blocking || exc.None? ==> r.1 == s
  {
    if !blocking && exc.Some? then
      (true, s.(activeExceptions := s.activeExceptions + [exc.value.value],
                blockException := s.blockException + [exc.value]))
    else (!blocking, s)
  }

  /** One step of a scope body: whether it blocks, and what its body raised. */
  datatype StepRun = StepRun(blocking: bool, exc: Option<ExcInfo>)

  /** Runs steps until one escapes: a blocking step whose body raised ends the scope body. */
  function RunSteps(s: State, steps: seq<StepRun>): (r: (Option<Exn>, State))
    ensures s.activeExceptions <= r.1.activeExceptions && s.blockException <= r.1.blockException
    ensures r.1.currentTestcase == s.currentTestcase && r.1.currentFailures == s.currentFailures
    decreases |steps|
  {
    if |steps| == 0 then (None, s)
    else
      var (suppress, s1) := StepExit(s, steps[0].blocking, steps[0].exc);
      if steps[0].exc.Some? && !suppress then (Some(steps[0].exc.value.value), s1)
      else RunSteps(s1, steps[1..])
  }

  /** The steps that run: everything up to and including the first blocking step that raised. */
  function Executed(steps: seq<StepRun>): seq<StepRun>
    ensures |Executed(steps)| <= |steps|
  {
    if |steps| == 0 then []
    else if steps[0].blocking && steps[0].exc.Some? then [steps[0]]
    else [steps[0]] + Executed(steps[1..])
  }

  /** The independent reference: the values raised by the non-blocking steps that ran, in order. */
  function Swallowed(steps: seq<StepRun>): seq<Exn> {
    if |steps| == 0 then []
    else (if !steps[0].blocking && steps[0].exc.Some? then [steps[0].exc.value.value] else []) + Swallowed(steps[1..])
  }

  /** The `(type, value, traceback)` records of the non-blocking steps that failed, in order. */
  function SwallowedInfo(steps: seq<StepRun>): seq<ExcInfo> {
    if |steps| == 0 then []
    else (if !steps[0].blocking && steps[0].exc.Some? then [steps[0].exc.value] else []) + SwallowedInfo(steps[1..])
  }

  /** The exception a blocking step lets out of the body, if any. */
  function Escaped(steps: seq<StepRun>): Option<Exn> {
    if |steps| == 0 then None
    else if steps[0].blocking && steps[0].exc.Some? then Some(steps[0].exc.value.value)
    else Escaped(steps[1..])
  }

  /**
   * Running steps appends exactly the swallowed exceptions, in order, to
   * `active_exceptions`, one record each to `block_exception`, touches
   * nothing else, and lets out exactly the first blocking failure.
   */
  lemma {:induction false} RunStepsRecords(s: State, steps: seq<StepRun>)
    ensures var (escaped, s') := RunSteps(s, steps);
      && escaped == Escaped(steps)
      && s'.activeExceptions == s.activeExceptions + Swallowed(Executed(steps))
      && s'.blockException == s.blockException + SwallowedInfo(Executed(steps))
      && s'.currentTestcase == s.currentTestcase && s'.currentFailures == s.currentFailures
    decreases |steps|
  {
    if |steps| > 0 {
      var (_, s1) := StepExit(s, steps[0].blocking, steps[0].exc);
      if !(steps[0].blocking && steps[0].exc.Some?) {
        RunStepsRecords(s1, steps[1..]);
        assert Executed(steps) == [steps[0]] + Executed(steps[1..]);
        assert ([steps[0]] + Executed(steps[1..]))[1..] == Executed(steps[1..]);
        if !steps[0].blocking && steps[0].exc.Some? {
          assert s.activeExceptions + [steps[0].exc.value.value] + Swallowed(Executed(steps[1..]))
              == s.activeExceptions + ([steps[0].exc.value.value] + Swallowed(Executed(steps[1..])));
          assert s.blockException + [steps[0].exc.value] + SwallowedInfo(Executed(steps[1..]))
              == s.blockException + ([steps[0].exc.value] + SwallowedInfo(Executed(steps[1..])));
        }
      } else {
        assert Executed(steps) == [steps[0]];
        assert Swallowed([steps[0]]) == [] + Swallowed([steps[0]][1..]);
        assert SwallowedInfo([steps[0]]) == [] + SwallowedInfo([steps[0]][1..]);
      }
    }
  }

  /** `StepScope.__enter__`: clear both lists and the current test's failures. */
  function ScopeEnter(s: State): (r: State)
    ensures r.activeExceptions == [] && r.blockException == []
    ensures r.currentTestcase == s.currentTestcase
    ensures r.currentFailures.Keys == s.currentFailures.Keys + {s.currentTestcase}
    ensures r.currentFailures[s.currentTestcase] == []
    ensures forall t | t in s.currentFailures && t != s.currentTestcase :: r.currentFailures[t] == s.currentFailures[t]
  {
    s.(activeExceptions := [], blockException := [], currentFailures := s.currentFailures[s.currentTestcase := []])
  }

  /** What leaves a scope: the composite of the recorded exceptions, or the body's own exception. */
  datatype Raised = CompositeError(errors: seq<Exn>) | Propagated(exn: Exn)

  /**
   * `StepScope.__exit__`: recorded exceptions become one `CompositeError` in
   * recording order and both lists are emptied; with none recorded the
   * block list and the current test's failures are reset and the body's own
   * exception, if any, goes on (the method returns None).
   */
  function ScopeExit(s: State, bodyExc: Option<Exn>): (r: (Option<Raised>, State))
    ensures |s.activeExceptions| > 0 ==>
      && r.0 == Some(CompositeError(s.activeExceptions))
      && r.1 == s.(activeExceptions := [], blockException := [])
    ensures |s.activeExceptions| == 0 ==>
      && r.0 == (if bodyExc.Some? then Some(Propagated(bodyExc.value)) else None)
      && r.1 == s.(blockException := [], currentFailures := s.currentFailures[s.currentTestcase := []])
  {
    if |s.activeExceptions| > 0 then
      var errors := s.activeExceptions;
      (Some(CompositeError(errors)), s.(activeExceptions := [], blockException := []))
    else
      var raised := if bodyExc.Some? then Some(Propagated(bodyExc.value)) else None;
      (raised, s.(blockException := [], currentFailures := s.currentFailures[s.currentTestcase := []]))
  }

  /** `with Cafy.scope(): ...` around a run of steps. */
  function Scope(s: State, steps: seq<StepRun>): (r: (Option<Raised>, State))
    ensures r.1.activeExceptions == [] && r.1.blockException == []
    ensures r.1.currentTestcase == s.currentTestcase
    ensures r.0.Some? && r.0.value.CompositeError? ==> |r.0.value.errors| > 0
  {
    var (escaped, s1) := RunSteps(ScopeEnter(s), steps);
    ScopeExit(s1, escaped)
  }

  /**
   * A scope raises the composite of exactly the exceptions its non-blocking
   * steps swallowed, in order; with none, it lets the first blocking failure
   * through, or nothing. Either way it leaves both lists empty and the
   * current test with no failures.
   */
  lemma ScopeOutcome(s: State, steps: seq<StepRun>)
    ensures var (raised, s') := Scope(s, steps);
      var swallowed := Swallowed(Executed(steps));
      && raised == (if |swallowed| > 0 then Some(CompositeError(swallowed))
                    else if Escaped(steps).Some? then Some(Propagated(Escaped(steps).value))
                    else None)
      && s'.activeExceptions == [] && s'.blockException == []
      && s'.currentTestcase == s.currentTestcase
      && s.currentTestcase in s'.currentFailures && s'.currentFailures[s.currentTestcase] == []
  {
    var s0 := ScopeEnter(s);
    RunStepsRecords(s0, steps);
    var (escaped, s1) := RunSteps(s0, steps);
    assert s1.activeExceptions == Swallowed(Executed(steps));
    assert Scope(s, steps) == ScopeExit(s1, escaped);
  }

  /** Replace every newline of `s` with `<br/>`. */
  function NewlinesToBreaks(s: string): (r: string)
    ensures forall i | 0 <= i < |r| :: r[i] != '\n'
  {
    if |s| == 0 then ""
    else if s[0] == '\n' then "<br/>" + NewlinesToBreaks(s[1..])
    else [s[0]] + NewlinesToBreaks(s[1..])
  }

  /** A single character's HTML form: a newline becomes `<br/>`, any other character stays. */
  lemma NewlinesToBreaksChar(c: char)
    ensures NewlinesToBreaks([c]) == if c == '\n' then "<br/>" else [c]
  {
  }

  /**
   * The conversion works character by character: the HTML form of a
   * concatenation is the concatenation of the HTML forms. With
   * `NewlinesToBreaksChar` this fixes the result for every text.
   */
  lemma {:induction false} NewlinesToBreaksAppend(a: string, b: string)
    ensures NewlinesToBreaks(a + b) == NewlinesToBreaks(a) + NewlinesToBreaks(b)
  {
    if |a| > 0 {
      assert (a + b)[0] == a[0];
      assert (a + b)[1..] == a[1..] + b;
      NewlinesToBreaksAppend(a[1..], b);
    } else {
      assert a + b == b;
    }
  }

  /** A text with '<' in it converts the same way: `"<\n"` becomes `"<<br/>"`. */
  lemma NewlinesToBreaksKeepsAngle()
    ensures NewlinesToBreaks("<\n") == "<<br/>"
  {
  }

  /** Occurrences of character `c` in `s`. */
  function CountChar(s: string, c: char): nat {
    if |s| == 0 then 0 else (if s[0] == c then 1 else 0) + CountChar(s[1..], c)
  }

  /** Each newline grows the text by four characters. */
  lemma {:induction false} NewlinesToBreaksLength(s: string)
    ensures |NewlinesToBreaks(s)| == |s| + 4 * CountChar(s, '\n')
  {
    if |s| > 0 {
      NewlinesToBreaksLength(s[1..]);
    }
  }

  /** Turn every `<br/>` back into a newline. */
  function BreaksToNewlines(s: string): string {
    if |s| == 0 then ""
    else if StartsWith(s, "<br/>") then "\n" + BreaksToNewlines(s[5..])
    else [s[0]] + BreaksToNewlines(s[1..])
  }

  /** For a text without '<', the HTML form reads back to the original text. */
  lemma {:induction false} BreaksRoundTrip(s: string)
    requires forall i | 0 <= i < |s| :: s[i] != '<'
    ensures BreaksToNewlines(NewlinesToBreaks(s)) == s
  {
    if |s| > 0 {
      BreaksRoundTrip(s[1..]);
      var h := NewlinesToBreaks(s);
      if s[0] == '\n' {
        assert h[..5] == "<br/>";
        assert h[5..] == NewlinesToBreaks(s[1..]);
      } else {
        FirstCharMismatch(h, "<br/>");
        assert h[1..] == NewlinesToBreaks(s[1..]);
      }
    }
  }

  /** A `TestcaseStatus` after `__init__`. */
  datatype TestcaseStatus = TestcaseStatus(name: string, status: string, htmlMessage: string, textMessage: Option<string>)

  /**
   * `TestcaseStatus.__init__`. `chained` is `message.chain[0][1].message` when
   * that lookup succeeds (it may itself be None), else absent, and then
   * `str(message)` is used. The text message keeps the raw text; the HTML
   * message has `<br/>` for every newline and is "" for an empty or None text.
   */
  function MakeStatus(name: string, status: string, chained: Option<Option<string>>, str: string): (r: TestcaseStatus)
    ensures r.textMessage == (if chained.Some? then chained.value else Some(str))
    ensures r.textMessage.None? || r.textMessage == Some("") ==> r.htmlMessage == ""
    ensures r.textMessage.Some? ==> r.htmlMessage == NewlinesToBreaks(r.textMessage.value)
    ensures r.textMessage.Some? ==> |r.htmlMessage| == |r.textMessage.value| + 4 * CountChar(r.textMessage.value, '\n')
    ensures r.textMessage.Some? && (forall i | 0 <= i < |r.textMessage.value| :: r.textMessage.value[i] != '<') ==>
      BreaksToNewlines(r.htmlMessage) == r.textMessage.value
    ensures forall i | 0 <= i < |r.htmlMessage| :: r.htmlMessage[i] != '\n'
  {
    var text := if chained.Some? then chained.value else Some(str);
    var html := if text.Some? && text.value != "" then NewlinesToBreaks(text.value) else "";
    if text.Some? then
      HtmlFacts(text.value);
      TestcaseStatus(name, status, html, text)
    else TestcaseStatus(name, status, html, text)
  }

  lemma HtmlFacts(t: string)
    ensures |NewlinesToBreaks(t)| == |t| + 4 * CountChar(t, '\n')
    ensures (forall i | 0 <= i < |t| :: t[i] != '<') ==> BreaksToNewlines(NewlinesToBreaks(t)) == t
  {
    NewlinesToBreaksLength(t);
    if forall i | 0 <= i < |t| :: t[i] != '<' {
      BreaksRoundTrip(t);
    }
  }
}

=== FILE: strings.dfy ===
/** Prefix and substring tests on Python strings (sequences of characters). */
module Strings {

  /** `s.startswith(p)` */
  predicate StartsWith(s: string, p: string) {
    |p| <= |s| && s[..|p|] == p
  }

  /** Strings whose first characters differ do not share a prefix. */
  lemma FirstCharMismatch(s: string, p: string)
    requires |s| > 0 && |p| > 0 && s[0] != p[0]
    ensures !StartsWith(s, p)
  {
  }

  /** `p` occurs in `s` starting at index `i`. */
  ghost predicate OccursAt(s: string, p: string, i: int) {
    0 <= i && i + |p| <= |s| && s[i..i + |p|] == p
  }

  /** The specification of Python's `p in s`. */
  ghost predicate Occurs(s: string, p: string) {
    exists i :: OccursAt(s, p, i)
  }

  /** Python's `p in s`, as a left-to-right scan. */
  function Contains(s: string, p: string): (b: bool)
    ensures b <==> Occurs(s, p)
    decreases |s|
  {
    if StartsWith(s, p) then
      assert OccursAt(s, p, 0);
      true
    else if |s| == 0 then
      assert forall i :: !OccursAt(s, p, i) by {
        forall i | OccursAt(s, p, i) ensures false {
          assert false;
        }
      }
      false
    else
      var rest := Contains(s[1..], p);
      ContainsShift(s, p);
      rest
  }

  /** Occurrences in `s` not at index 0 are exactly the occurrences in `s[1..]`, shifted by one. */
  lemma ContainsShift(s: string, p: string)
    requires |s| > 0 && !StartsWith(s, p)
    ensures Occurs(s, p) <==> Occurs(s[1..], p)
  {
    if Occurs(s, p) {
      var i :| OccursAt(s, p, i);
      if i == 0 {
        assert false;
      }
      assert s[1..][i - 1..i - 1 + |p|] == s[i..i + |p|];
      assert OccursAt(s[1..], p, i - 1);
    }
    if Occurs(s[1..], p) {
      var j :| OccursAt(s[1..], p, j);
      assert s[1..][j..j + |p|] == s[j + 1..j + 1 + |p|];
      assert OccursAt(s, p, j + 1);
    }
  }
}

=== FILE: sums.dfy ===
/** Sums over the values of a finite map, independent of the order in which keys are visited. */
module Sums {

  /** Some key of a non-empty map. */
  ghost function Pick<K>(m: map<K, int>): (k: K)
    requires m != map[]
    ensures k in m
  {
    var k :| k in m; k
  }

  /** The sum of the values of `m`. */
  ghost function SumValues<K>(m: map<K, int>): int
    decreases |m|
  {
    if m == map[] then 0
    else
      var k := Pick(m);
      assert |m - {k}| < |m| by { assert (m - {k}).Keys == m.Keys - {k}; }
      m[k] + SumValues(m - {k})
  }

  /** Whichever key is taken out first, the sum is the same. */
  lemma {:induction false} SumValuesRemove<K>(m: map<K, int>, k: K)
    requires k in m
    ensures SumValues(m) == m[k] + SumValues(m - {k})
    decreases |m|
  {
    var k' := Pick(m);
    if k' != k {
      assert (m - {k'}).Keys == m.Keys - {k'};
      assert (m - {k}).Keys == m.Keys - {k};
      SumValuesRemove(m - {k'}, k);
      SumValuesRemove(m - {k}, k');
      assert (m - {k'}) - {k} == (m - {k}) - {k'};
    }
  }

  /** Adding one fresh key adds its value to the sum. */
  lemma SumValuesInsert<K>(m: map<K, int>, k: K, v: int)
    requires k !in m
    ensures SumValues(m[k := v]) == SumValues(m) + v
  {
    SumValuesRemove(m[k := v], k);
    assert m[k := v] - {k} == m;
  }
}

=== FILE: test_identity.dfy ===
/** How both time collectors name the running test: `ClassName.item_name`, or `item_name` alone. */
module TestIdentity {
  import opened Wrappers

  /**
   * A class object: its identity and its `__name__`. Two classes in
   * different modules may share a `__name__` and still be different classes.
   */
  datatype PyType = PyType(id: nat, name: string)

  /**
   * The part of a collected test item the collectors read: `item.cls` (None
   * for a module-level test function) and `item.name`.
   * `inspect.getmro(cls)[0]` is the class itself, so only its own name matters.
   */
  datatype TestItem = TestItem(cls: Option<PyType>, name: string)

  /** The `__name__` of the item's class, if it has one. */
  function ClassName(item: TestItem): Option<string> {
    if item.cls.Some? then Some(item.cls.value.name) else None
  }

  /** The attribution key of a test, as both `pytest_runtest_protocol` hooks build it. */
  function Identity(item: TestItem): (r: string)
    ensures item.cls.Some? && item.cls.value.name != "" ==>
      && |r| == |item.cls.value.name| + 1 + |item.name|
      && r[..|item.cls.value.name|] == item.cls.value.name
      && r[|item.cls.value.name|] == '.'
      && r[|item.cls.value.name| + 1..] == item.name
    ensures item.cls.None? || item.cls.value.name == "" ==> r == item.name
  {
    match item.cls
    case Some(c) => if c.name != "" then c.name + "." + item.name else item.name
    case None => item.name
  }

  /** `'.' !in s` */
  predicate DotFree(s: string) {
    forall i | 0 <= i < |s| :: s[i] != '.'
  }

  /** Index of the first '.' in `s`, or `|s|` when there is none. */
  function FirstDot(s: string): (i: nat)
    ensures i <= |s|
    ensures DotFree(s[..i])
    ensures i < |s| ==> s[i] == '.'
  {
    if |s| == 0 then 0
    else if s[0] == '.' then 0
    else
      var j := FirstDot(s[1..]);
      assert s[..j + 1] == [s[0]] + s[1..][..j];
      j + 1
  }

  /** Reads a test key back into class name and test name, splitting at the first '.'. */
  function SplitIdentity(id: string): (Option<string>, string)
  {
    var i := FirstDot(id);
    if i < |id| then (Some(id[..i]), id[i + 1..]) else (None, id)
  }

  /** Class names are non-empty and dot-free; a test without a class has a dot-free name. */
  predicate Splittable(item: TestItem) {
    && (item.cls.Some? ==> item.cls.value.name != "" && DotFree(item.cls.value.name))
    && (item.cls.None? ==> DotFree(item.name))
  }

  /**
   * A class name is a Python identifier and never holds a '.', so the first
   * '.' of the key separates class name from test name. A test without a
   * class splits back only when its own name holds no '.'.
   */
  lemma SplitIdentityRoundTrip(item: TestItem)
    requires Splittable(item)
    ensures SplitIdentity(Identity(item)) == (ClassName(item), item.name)
  {
  }

  /**
   * The key determines the class name and the test name, and nothing more:
   * two splittable items share a key exactly when those agree.
   */
  lemma IdentityInjective(a: TestItem, b: TestItem)
    requires Splittable(a) && Splittable(b)
    ensures Identity(a) == Identity(b) <==> ClassName(a) == ClassName(b) && a.name == b.name
  {
    SplitIdentityRoundTrip(a);
    SplitIdentityRoundTrip(b);
  }

  /**
   * Same-named classes of two test modules give their tests the same key,
   * so both collectors file their times together.
   */
  lemma IdentityCollidesAcrossModules()
    ensures var a := TestItem(Some(PyType(1, "TestBasic")), "test_1");
      var b := TestItem(Some(PyType(2, "TestBasic")), "test_1");
      a != b && Identity(a) == Identity(b)
  {
  }
}

=== FILE: timer.dfy ===
/**
 * The older time collector: one running sum in seconds per test and
 * category (`sleep_time`, `bash_time`, `total_time`), and a flat report.
 */
module Timer {
  import opened Wrappers
  import opened TestIdentity
  import opened GtaLedger
  import opened GtaReport

  /** test -> category -> seconds spent so far. */
  type TimerLedger = map<TestKey, map<string, real>>

  const BashTime := "bash_time"

  /** `TimeCollectorPlugin` of the timer: the ledger, the current test, and the two clock fields. */
  datatype TimerPlugin = TimerPlugin(ledger: TimerLedger, testName: TestKey, startTime: Option<real>, totalExecutionTime: Option<real>)

  function Init(): (p: TimerPlugin)
    ensures p.ledger == map[] && p.testName.None? && p.startTime.None? && p.totalExecutionTime.None?
  {
    TimerPlugin(map[], None, None, None)
  }

  /** The running sum under a category; 0 when it is missing (`times.get(c, 0)`). */
  function TimeOf(times: map<string, real>, c: string): real {
    if c in times then times[c] else 0.0
  }

  /**
   * `update_granular_time`: add `elapsed` to the current test's category,
   * starting it at `elapsed` when it is new; nothing else changes.
   */
  function UpdateGranularTime(l: TimerLedger, test: TestKey, category: string, elapsed: real): (r: TimerLedger)
    ensures r.Keys == l.Keys + {test}
    ensures forall t | t in l && t != test :: t in r && r[t] == l[t]
    ensures r[test].Keys == (if test in l then l[test].Keys else {}) + {category}
    ensures r[test][category] == (if test in l then TimeOf(l[test], category) else 0.0) + elapsed
    ensures test in l ==> forall c | c in l[test] && c != category :: c in r[test] && r[test][c] == l[test][c]
  {
    if test !in l then l[test := map[category := elapsed]]
    else if category in l[test] then l[test := l[test][category := l[test][category] + elapsed]]
    else l[test := l[test][category := elapsed]]
  }

  /** One call through a timer wrapper: what the original received, what the caller sees, the state after. */
  datatype Call<A, R> = Call(forwarded: seq<A>, outcome: Result<R>, plugin: TimerPlugin)

  /** The `time.sleep` replacement: sleep once, then add the measured seconds to `sleep_time`. */
  function MeasureSleep<D>(p: TimerPlugin, sleep: D -> Result<()>, duration: D, elapsed: real): (r: Call<D, ()>)
    ensures r.forwarded == [duration]
    ensures r.outcome == sleep(duration)
    ensures sleep(duration).Err? ==> r.plugin == p
    ensures sleep(duration).Ok? ==> r.plugin == p.(ledger := UpdateGranularTime(p.ledger, p.testName, SleepTime, elapsed))
  {
    match sleep(duration)
    case Err(e) => Call([duration], Err(e), p)
    case Ok(u) => Call([duration], Ok(u), p.(ledger := UpdateGranularTime(p.ledger, p.testName, SleepTime, elapsed)))
  }

  /** The `subprocess.run` replacement: run once, add the seconds to `bash_time`, return the original result. */
  function MeasureSubprocess<A, R>(p: TimerPlugin, run: A -> Result<R>, args: A, elapsed: real): (r: Call<A, R>)
    ensures r.forwarded == [args]
    ensures r.outcome == run(args)
    ensures run(args).Err? ==> r.plugin == p
    ensures run(args).Ok? ==> r.plugin == p.(ledger := UpdateGranularTime(p.ledger, p.testName, BashTime, elapsed))
  {
    match run(args)
    case Err(e) => Call([args], Err(e), p)
    case Ok(v) => Call([args], Ok(v), p.(ledger := UpdateGranularTime(p.ledger, p.testName, BashTime, elapsed)))
  }

  /** `pytest_runtest_protocol`: remember when the test started and make it the current test. */
  function Protocol(p: TimerPlugin, item: TestItem, now: real): (r: TimerPlugin)
    ensures r.startTime == Some(now) && r.testName == Some(Identity(item))
    ensures r.ledger == p.ledger && r.totalExecutionTime == p.totalExecutionTime
  {
    p.(startTime := Some(now), testName := Some(Identity(item)))
  }

  /**
   * `pytest_runtest_teardown`: add the seconds since the protocol hook under
   * `total_time` and clear `total_execution_time`. Without a start time the
   * subtraction raises `TypeError`.
   */
  function Teardown(p: TimerPlugin, now: real): (r: Result<TimerPlugin>)
    ensures r.Err? <==> p.startTime.None?
    ensures r.Ok? ==>
      && r.value.ledger == UpdateGranularTime(p.ledger, p.testName, TotalTime, now - p.startTime.value)
      && r.value.totalExecutionTime.None?
      && r.value.testName == p.testName && r.value.startTime == p.startTime
  {
    match p.startTime
    case None => Err(TypeError)
    case Some(start) =>
      var total := now - start;
      Ok(p.(ledger := UpdateGranularTime(p.ledger, p.testName, TotalTime, total), totalExecutionTime := None))
  }

  /** One row of `granular_time_report.json`. */
  datatype TimerRow = TimerRow(sleepTime: real, bashTime: real, execTime: Option<real>, configTime: Option<real>,
                               interCommandsDelayTime: Option<real>, totalExecutionTime: real)

  /** The rows of `collect_granular_time_accouting_report`, before they are written out. */
  function Report(l: TimerLedger): (r: map<TestKey, TimerRow>)
    ensures r.Keys == l.Keys
    ensures forall t | t in l ::
      && r[t].execTime.None? && r[t].configTime.None? && r[t].interCommandsDelayTime.None?
      && r[t].sleepTime == TimeOf(l[t], SleepTime)
      && r[t].bashTime == TimeOf(l[t], BashTime)
      && r[t].totalExecutionTime == TimeOf(l[t], TotalTime)
  {
    map t | t in l :: TimerRow(TimeOf(l[t], SleepTime), TimeOf(l[t], BashTime), None, None, None, TimeOf(l[t], TotalTime))
  }

  /** One timed event: which test was current, its category, the seconds measured. */
  datatype Event = Event(test: TestKey, category: string, elapsed: real)

  /** The ledger after a run of events, oldest first. */
  function Replay(l: TimerLedger, events: seq<Event>): (r: TimerLedger)
    ensures l.Keys <= r.Keys
    ensures forall t | t in l :: l[t].Keys <= r[t].Keys
    decreases |events|
  {
    if |events| == 0 then l
    else Replay(UpdateGranularTime(l, events[0].test, events[0].category, events[0].elapsed), events[1..])
  }

  /** The independent reference: total seconds of the events of one test and category. */
  function SumFor(events: seq<Event>, t: TestKey, c: string): real {
    if |events| == 0 then 0.0
    else (if events[0].test == t && events[0].category == c then events[0].elapsed else 0.0) + SumFor(events[1..], t, c)
  }

  ghost predicate SeenTest(events: seq<Event>, t: TestKey) {
    exists i | 0 <= i < |events| :: events[i].test == t
  }

  ghost predicate Seen(events: seq<Event>, t: TestKey, c: string) {
    exists i | 0 <= i < |events| :: events[i].test == t && events[i].category == c
  }

  /**
   * Replaying events keeps, per test and category, exactly the sum of their
   * seconds on top of what was there, and a category exists exactly when it
   * existed or some event named it.
   */
  lemma {:induction false} ReplaySums(l: TimerLedger, events: seq<Event>, t: TestKey, c: string)
    ensures var r := Replay(l, events);
      && (t in r <==> t in l || SeenTest(events, t))
      && (t in r && c in r[t] <==> (t in l && c in l[t]) || Seen(events, t, c))
      && (t in r ==> TimeOf(r[t], c) == (if t in l then TimeOf(l[t], c) else 0.0) + SumFor(events, t, c))
    decreases |events|
  {
    if |events| > 0 {
      var e := events[0];
      var l' := UpdateGranularTime(l, e.test, e.category, e.elapsed);
      ReplaySums(l', events[1..], t, c);
      SeenShift(events, t, c);
    }
  }

  lemma SeenShift(events: seq<Event>, t: TestKey, c: string)
    requires |events| > 0
    ensures SeenTest(events, t) <==> events[0].test == t || SeenTest(events[1..], t)
    ensures Seen(events, t, c) <==> (events[0].test == t && events[0].category == c) || Seen(events[1..], t, c)
  {
    if SeenTest(events[1..], t) {
      var i :| 0 <= i < |events[1..]| && events[1..][i].test == t;
      assert events[i + 1].test == t;
    }
    if Seen(events[1..], t, c) {
      var i :| 0 <= i < |events[1..]| && events[1..][i].test == t && events[1..][i].category == c;
      assert events[i + 1] == events[1..][i];
    }
  }

  /**
   * From a fresh plugin, each report row holds the summed seconds of that
   * test's sleeps, subprocess runs and teardown totals, and 0 where none
   * happened.
   */
  lemma ReportOfReplay(events: seq<Event>, t: TestKey)
    requires SeenTest(events, t)
    ensures var r := Report(Replay(map[], events));
      && t in r
      && r[t].sleepTime == SumFor(events, t, SleepTime)
      && r[t].bashTime == SumFor(events, t, BashTime)
      && r[t].totalExecutionTime == SumFor(events, t, TotalTime)
  {
    ReplaySums(map[], events, t, SleepTime);
    ReplaySums(map[], events, t, BashTime);
    ReplaySums(map[], events, t, TotalTime);
  }
}

=== FILE: wrappers.dfy ===
/** Failure-carrying datatypes shared by every module of the model. */
module Wrappers {

  /** Python's `None` or a present value. */
  datatype Option<+T> = None | Some(value: T)

  /** A Python exception, identified by its class name. */
  datatype Exn = Exn(kind: string)

  /** The outcome of a Python call: a value, or the exception it raised. */
  datatype Result<+T> = Ok(value: T) | Err(error: Exn)

  const AttributeError := Exn("AttributeError")
  const IndexError := Exn("IndexError")
  const TypeError := Exn("TypeError")
}
